=== FILE: README.md ===
# Image selection web application, modelled in Dafny

The application is a small Flask site for picking one image per category.
It works on an image tree `IMG_DIR/<category>/<item folder>/profile_geo.png`
and keeps its state in two places. The user's choices live in
`DATA_DIR/selections.json`. The session remembers the last list page shown.

It serves six routes. The model covers the first five:

- `/` lists the category folders, ten to a page.
- `/category/<name>` shows a category's items. They are sorted by the number
  before the first `.` of their folder name, and the chosen item comes first.
- `POST /select` records a choice.
- `POST /unselect` removes a choice.
- `/export-excel` writes one spreadsheet row per choice: the category, a
  token taken from the image path, and the stripped contents of the `.txt`
  file next to the image. Afterwards it shows the list page again.
- `/img/<path>` sends an image file from `IMG_DIR`; it is not modelled.

The model is a set of pure functions over immutable data:

| file | module | what it holds |
|---|---|---|
| `results.dfy` | `Results` | `Option`, the request failures, `Result`, and `Collect`. `Collect` models a loop that stops at its first exception. |
| `text.dfy` | `Text` | Python's `str.split` with a one-character separator, `join`, `replace`, `strip`, and the `isspace` character set. |
| `numbers.dfy` | `Numbers` | Python's `int()` on a string, and decimal rendering as its inverse. |
| `lexicographic.dfy` | `Lexicographic` | `sorted()` on strings, which orders by code point. |
| `stablesort.dfy` | `StableSort` | A stable sort by precomputed integer keys, proved stable and proved unique. |
| `pagination.dfy` | `Pagination` | The page arithmetic shared by the list page and the export. |
| `catalog.dfy` | `Catalog` | `get_categories` and `get_category_images`, over directory listings given as input. |
| `ordering.dfy` | `Ordering` | The item ordering of `category_view`. |
| `selections.dfy` | `Selections` | The selections `dict`, kept as its insertion order plus a map. |
| `export.dfy` | `Export` | The sidecar path, the search token and the rows of the export. |
| `app.dfy` | `App` | Each route as one step from the stored state to a response. |

The model treats these as inputs:

- The file system is an input: directory listings (`None` for a missing
  directory) and a map from text-file paths to their contents.
- The session's `last_page` is part of the state.
- The `page` query parameter is an optional raw string.

Python exceptions that abort a request become `Err` values. There are three:

- `int()` rejecting a folder prefix;
- an `IndexError` while taking the search token;
- a missing sidecar file.

## Model

| member | source | states |
|---|---|---|
| Pagination.TotalPages | app.py:82 | The page count is the least `n` with `n * 10 >= total`. It is zero exactly when there are no categories. |
| Pagination.Clamp | app.py:83 | The page is at least 1 and at most the page count when there are pages. A page already in range is kept. Pages above the range go to the last page. Pages below it, and any page when there are no pages, go to 1. |
| Pagination.QueryPageShow | app.py:77 | A `page` parameter holding a decimal number, sign included, reads as that number, up to 4300 digits. |
| Pagination.QueryPageRejects | app.py:77-79 | A `page` parameter with a character other than whitespace, a sign, a digit or `_` counts as no parameter: the session's last page is shown. |
| Pagination.PySlice | app.py:86-88 | Python slicing with non-negative bounds. Bounds past the end are cut back. A start past the end gives an empty slice. |
| Pagination.Paginate | app.py:77-88 | Categories `(page-1)*10` up to `min(page*10, total)` are shown, so at most ten and at least one when there are categories. The page shown is the requested page (query, else session, else 1) clamped to `1..total_pages`: in range it is kept, above it goes to the last page, below it or with no pages it goes to 1. |
| Pagination.RevisitSamePage | app.py:78-84 | The page stored in the session is a fixed point. A later visit without a `page` parameter shows the same view. |
| Pagination.PageOfIndex | app.py:86-88 | Category `i` appears as entry `i % 10` of page `i / 10 + 1`. |
| Pagination.FirstPagesPrefix | app.py:86-88 | Pages `1..n` together are exactly the first `min(10n, total)` categories. |
| Pagination.PagesPartition | app.py:80-88 | All pages together list every category once, in order. |
| Pagination.TwentyFiveCategories | app.py:80-88 | With 25 categories: page 1 is entries 0..9, page 3 is 20..24, page 4 falls back to page 3, and no parameter or session gives page 1. |
| Numbers.ParseDigits | app.py:110 | `int()` of a plain run of at most 4300 ASCII digits is the decimal value of those digits. |
| Numbers.TooManyDigits | app.py:110 | `int()` raises on a run of more than 4300 digits, CPython's default limit since 3.11 and the 3.10.7, 3.9.14, 3.8.14 and 3.7.14 security releases. |
| Numbers.ParseAccepts | app.py:77 | Text that `int()` accepts holds only whitespace, signs, digits and underscores. |
| Numbers.ParseRejects | app.py:77 | `int()` raises on text holding any other character. |
| Numbers.ShowNatValue | app.py:110 | The decimal rendering of a natural number reads back as that number. |
| Numbers.ParseShow | app.py:77 | `int()` accepts the decimal rendering of every integer of at most 4300 digits, negative ones included, and returns that integer. |
| Numbers.ShowTooLong | app.py:77 | `int()` raises on the decimal rendering of an integer of more than 4300 digits. |
| Text.JoinSplit | app.py:110 | Joining the pieces of `split(sep)` with `sep` gives back the text. |
| Text.SplitJoin | app.py:154 | Splitting a join of separator-free pieces gives back the pieces. |
| Text.SplitCons | app.py:154 | Text that starts with a separator-free piece and a separator splits into that piece followed by the pieces of the rest. |
| Text.ReplaceAbsent | app.py:150 | `replace` leaves text without the pattern unchanged. |
| Text.ReplaceAround | app.py:150 | A character that cannot occur in the pattern splits the replacement into independent halves. |
| Text.ReplaceAfterPlain | app.py:150 | A prefix without the pattern's first character is copied unchanged, and only the rest is rewritten. |
| Text.ReplaceChangesWindows | app.py:150 | When the replacement is as long as the pattern, a character changes only inside a window where the text reads the pattern and the result reads the replacement. |
| Text.ReplaceEveryWindow | app.py:150 | For a pattern that cannot overlap itself, every occurrence reads as the replacement in the result. |
| Text.ReplaceSlashed | app.py:150 | For a pattern without `/`, replacing in a four-part `/` path replaces in each part on its own. |
| Text.TrimLeft | app.py:151 | The text is some whitespace followed by the result, and the result does not start with whitespace. |
| Text.TrimRight | app.py:151 | The text is the result followed by some whitespace, and the result does not end with whitespace. |
| Text.TrimBoth | app.py:151 | The stripped text is no longer than the original and neither starts nor ends with whitespace. |
| Text.TrimBothSlice | app.py:151 | The original is leading whitespace, then the stripped text, then trailing whitespace. |
| Text.StripIdempotent | app.py:151 | Stripping twice gives the same result as stripping once. |
| Lexicographic.LeReflexive | app.py:36 | Python's string order is reflexive. |
| Lexicographic.LeTotal | app.py:36 | Any two strings are ordered one way or the other. |
| Lexicographic.LeAntisymmetric | app.py:36 | Two strings each at most the other are equal. |
| Lexicographic.LeTransitive | app.py:36 | The string order is transitive. |
| Lexicographic.Sort | app.py:36 | `sorted()` returns an ascending rearrangement of the names. |
| Lexicographic.SortedUnique | app.py:36 | There is only one ascending rearrangement of a collection of names. |
| StableSort.Sort | app.py:110 | The sort's output is ascending by key and a rearrangement of its input. |
| StableSort.SortStable | app.py:110 | Within each key, elements keep their original order. |
| StableSort.SortValues | app.py:110 | The sort neither adds nor loses values. |
| StableSort.StableSortUnique | app.py:110 | There is only one stable sort of a sequence, so this sort agrees with Python's `list.sort`. |
| StableSort.SortSwapsTwo | app.py:110 | Two elements whose keys are out of order are swapped. |
| Catalog.DirNames | app.py:32-35 | The names kept are exactly the directories of the listing. A single entry gives its name when it is a directory and nothing otherwise. |
| Catalog.DirNamesAppend | app.py:32-35 | With the single-entry case, every directory is kept once and in listing order. |
| Catalog.Categories | app.py:28-36 | The categories are sorted, contain exactly the directory names of the root listing, and are empty when the root does not exist. |
| Catalog.CategoriesAreSortedNames | app.py:36 | The category list equals every ascending arrangement of the directory names. |
| Catalog.ItemsOf | app.py:46-57 | An item exists for exactly the folders that contain `profile_geo.png`. Its image path is `category/folder/profile_geo.png`. A single entry gives its item when it is such a folder and nothing otherwise. |
| Catalog.CategoryImages | app.py:38-57 | A missing category directory gives no items. Plain files and folders without the image are left out. |
| Catalog.ItemsOfAppend | app.py:46-57 | Items keep listing order, and each entry is judged on its own. |
| Ordering.FolderKeyOfDigits | app.py:110 | A folder named `<digits>.<anything>` with at most 4300 digits is keyed by the value of the digits. |
| Ordering.FolderKeyTooLong | app.py:110 | A folder whose digit run is longer than 4300 digits has no key, so sorting fails. |
| Ordering.FirstUnkeyed | app.py:110 | The position of the first folder without a key. Every folder before it has a key. |
| Ordering.Decorate | app.py:110 | Every key is computed, in list order. The first folder without a key fails the request with `BadFolderPrefix`. |
| Ordering.DecorateValues | app.py:110 | Pairs that carry their items' keys are what computing the keys produces. |
| Ordering.SortItems | app.py:110 | The result succeeds exactly when every key exists. It is then the stable sort by key and a rearrangement of the items. Otherwise it reports the first failing folder. |
| Ordering.FindPath | app.py:107 | `next(...)` finds the first item with the path, or reports that no item has it. |
| Ordering.RemoveFirst | app.py:109 | `list.remove` deletes the first element equal to the given item. |
| Ordering.RemoveSelected | app.py:107-109 | Removing the found item deletes exactly its position. |
| Ordering.ArrangeUnselected | app.py:112-113 | With no selection, the items are stably sorted. The page fails exactly when some key is missing. |
| Ordering.ArrangeUnmatched | app.py:106-108 | A selection that matches no item leaves the list unsorted. This holds even when keys are missing. |
| Ordering.ArrangeSelected | app.py:106-111 | The first matching item goes first and the other items are stably sorted behind it. Only the other items' keys are needed. |
| Ordering.SortItemsSwapsTwo | app.py:110 | Two items whose keys are out of order are swapped. |
| Ordering.FindsSecond | app.py:107 | Example helper: the second of three items is found when the first has a different path. |
| Ordering.SelectedComesFirstExample | app.py:106-111 | Example: items keyed 3, 2 and 1, with the middle one selected, are shown as 2, 1, 3. |
| Ordering.FolderOrderExample | app.py:106-111 | Example: folders `3.baz`, `2.bar`, `1.foo` with `2.bar` selected are shown as `2.bar`, `1.foo`, `3.baz`. |
| Selections.Empty | app.py:17-20 | With no selections file, the selections are empty. |
| Selections.Select | app.py:126-128 | The chosen image is recorded. A category already chosen keeps its position, and a new one is appended. |
| Selections.Remove | app.py:139 | Exactly the given key is removed, and the other keys keep their order. |
| Selections.RemoveAt | app.py:139 | Removing the key at position `i` deletes that position. |
| Selections.Unselect | app.py:137-140 | The file is written exactly when the category was chosen. Unselecting an absent category changes nothing. |
| Selections.GetSelect | app.py:126-128 | After a choice, the category reads back as the chosen path and other categories are unaffected. |
| Selections.GetUnselect | app.py:137-140 | After unselecting, the category reads as the default and other categories are unaffected. |
| Selections.SelectOverwrites | app.py:127 | A second choice for the same category replaces the first. |
| Selections.SelectCommutesImages | app.py:127 | Choices for different categories give the same images in either order. |
| Selections.UnselectIdempotent | app.py:138-140 | Unselecting again changes nothing and writes nothing. |
| Selections.RemoveAppended | app.py:126-140 | Removing a category just appended gives back the earlier order. |
| Selections.UnselectRemovesAt | app.py:139 | The other categories keep their order. |
| Selections.UnselectAfterSelect | app.py:126-140 | Unselecting right after a choice leaves the same state as unselecting alone. |
| Selections.SelectUnselectRoundTrip | app.py:126-140 | Choosing a new category and then unselecting it restores the selections exactly. |
| Results.FirstErr | app.py:149-156 | The position of the first failing step. Every step before it succeeds. |
| Results.Collect | app.py:149-156 | The loop succeeds exactly when every step succeeds, and then gives every value in order. Otherwise it reports the first failure. |
| Results.CollectAppend | app.py:149-156 | Collecting two runs in sequence succeeds when both do, and concatenates their values. |
| Results.CollectUpdate | app.py:149-156 | Replacing one successful step with another replaces its value in place. |
| Results.CollectRemoveAt | app.py:149-156 | Leaving out one successful step leaves out its value. |
| Export.SidecarWindows | app.py:150 | The text-file path is the joined image path with exactly its `.png` windows rewritten to `.txt`: every `.png` becomes `.txt`, and no other character changes. |
| Export.NoPngLeft | app.py:150 | No `.png` remains after the replacement. |
| Export.SidecarHasNoPng | app.py:150 | No sidecar path contains `.png`. |
| Export.ItemSidecar | app.py:150 | When no name contains `.png`, an item's text file is `IMG_DIR/category/folder/profile_geo.txt`. |
| Export.CategoryNamedPng | app.py:150 | Because every `.png` is replaced, a category named `x.png` is read from `x.txt/...`. |
| Export.SearchToken | app.py:154 | A token exists exactly when the path has a second segment containing a `.`. The token contains no `.`. |
| Export.TokenOfPath | app.py:154 | The token comes from the second path segment alone: the text between its first and second `.`. |
| Export.ItemToken | app.py:154 | An item's token comes from its folder name, whatever the category. |
| Export.NumberedFolderToken | app.py:154 | A folder `<number>.<word>` gives the token `<word>`. |
| Export.UndottedFolderToken | app.py:154 | A folder name without a `.` gives no token, so the export fails. |
| Export.ExportItemRow | app.py:150-156 | For an item folder `<number>.<word>`, the row is the category, `word` and the stripped text of `profile_geo.txt` in that folder. The export fails when that file is missing. |
| Export.ExportRowExample | app.py:150-156 | Example: category `A` with image `cat1/5.item/profile_geo.png` gives the row `A`, `item` and the stripped text of `IMG_DIR/cat1/5.item/profile_geo.txt`. |
| Export.Rows | app.py:149-156 | There is one row per selection, in selection order. The first failing selection aborts the export with its error. |
| Export.ExportRows | app.py:149-156 | The export succeeds exactly when every selection's row does. Row `i` is then the row of the `i`-th chosen category and its image. |
| Export.RowsAfterNewSelection | app.py:126-128 | A new choice adds its row at the end of the next export. |
| Export.RowsAfterReselection | app.py:127 | Re-choosing a category changes only that category's row, in place. |
| Export.OutcomesUpdate | app.py:127 | A new image for one category changes only that category's step of the export loop. |
| Export.OutcomesCut | app.py:139 | Removing one category from the order removes only its step, provided the other categories keep their images. |
| Export.OutcomesAfterUnselect | app.py:139 | Unselecting removes that category's step from the export loop. |
| Export.RowsAfterUnselect | app.py:137-140 | Unselecting removes that category's row and keeps the other rows in order. |
| App.ListView | app.py:73-88 | The list page shows the window `(page-1)*10 .. min(page*10, total)` of the sorted categories, where the page is the requested page clamped to the page range, together with the total and the page count `ceil(total / 10)`. |
| App.Step | app.py:70-184 | Only the two form posts change the selections, and only they write the file. Unselecting an absent category writes nothing. The list page and a successful export store the page they show. A failed page or export changes nothing. `/` shows the list view for its request. A category request renders the gallery of that category with its items in display order and its selection, or fails with the error of the first folder key that fails. The export either renders the spreadsheet rows with the list view and the current selections, which happens exactly when every row succeeds, or fails with the first failing row's error and leaves the session alone. |
| App.ExportedRows | app.py:149-156 | The export has rows exactly when every selection's row succeeds. Row `i` is then the row of the `i`-th chosen category, so there is one per selection, in selection order. |
| App.ExportShowsListPage | app.py:163-176 | After a successful export, the page shown and the session are those of the list page for the same request. |
| App.HomeAgain | app.py:77-84 | Returning to the list page without a `page` parameter shows the same view. |
| App.ChooseThenBrowse | app.py:103-111 | After choosing an item's image, the gallery shows that item first, then the others stably sorted by folder number. |
| App.UnchooseThenBrowse | app.py:103-113 | After unchoosing, the gallery is all the items stably sorted by folder number. |
| App.ChooseThenUnchoose | app.py:126-140 | Choosing a new category and then unchoosing it restores the stored state. Both requests write the file. |
| App.ChooseThenExport | app.py:126-156 | A new choice appends exactly its row to the next export. |

## Left out

- Flask routing is replaced by the `Request` datatype, so URL parsing and
  `url_for` are not modelled. Templates, redirects and `send_from_directory`
  are replaced by the `Response` datatype, and the `/img/<path>` route is not
  modelled.
- Reading and writing `selections.json`, JSON encoding, and
  `os.makedirs(DATA_DIR)` are replaced by the selections in the state.
  Dictionary insertion order, which JSON preserves, is kept.
- A missing `category` or `image_path` form field is not modelled. Flask
  would give `None`, which becomes a `null` key or value in the JSON file.
  The model takes both fields as strings.
- The spreadsheet file is not modelled: pandas, the Excel format and the
  timestamp in its name are left out. The rows that would be written are
  returned instead.
- File contents are given as decoded strings, after the newline
  translation of a file opened in text mode (`\r\n` and `\r` read as `\n`)
  and before `.strip()`. Character decoding, that translation, and
  unreadable files other than missing ones are not modelled.
- `os.listdir` order is an input, since the operating system does not
  specify it.
- Catalog.CategoryImages: the image path is `category/folder/profile_geo.png`
  joined literally. `os.path.relpath` would also normalise a category named
  `.` or `..` or one containing `/`, and that case is not modelled.
- `os.path.exists` on a category path that names a plain file is not
  modelled: a listing is given only for directories.
- Numbers.ParseInt: non-ASCII decimal digits, which Python's `int()` also
  accepts, are not modelled. Unicode whitespace around the number is. The
  4300-digit limit is CPython's default since 3.11 and in the 3.10.7,
  3.9.14, 3.8.14 and 3.7.14 security releases; a changed
  `sys.set_int_max_str_digits` setting is not modelled.
- Numbers.Show: Python's `str()` refuses integers of more than 4300 digits
  too. The model's rendering has no limit, because it only states the round
  trip; Numbers.ParseShow and Numbers.ShowTooLong split on the limit.
- Paths follow POSIX `os.path` semantics: `/` is the only separator
  (Export.PathJoin, Catalog.ImagePath). On Windows `os.path.join` and
  `os.path.relpath` produce `\`-separated image paths, and
  `image_path.split('/')[1]` then raises `IndexError` for every selection;
  that behaviour is not covered.
- Export.ItemSidecar requires an image root with no trailing `/` and a
  category that does not start with `/`. The general case is covered by
  Export.SidecarWindows.
- Concurrent requests are not modelled. Two requests that both read and then
  save the selections can lose an update, but requests here are applied one
  at a time.
- `int()` failures on folder names and an `IndexError` while taking the
  search token are modelled as `Err` results, not as preconditions. A
  precondition would exclude inputs the application accepts and then aborts
  on.

=== FILE: app.dfy ===
/** The web application as a whole: each request handler as one step from
    the stored state to a response.

    The stored state is the selections file and the user's session, of which
    only `last_page` is used. The image tree and the text files next to the
    images are read but never written, and are given as a `Disk`. Rendering,
    redirecting and writing the spreadsheet file are replaced by responses
    that carry what would be rendered, where the browser is sent, and the
    rows that would be written.
 */
module App {
  import opened Results
  import opened Catalog
  import Ordering
  import opened Selections
  import Export
  import Pagination

  /** What the handlers read from the file system: the configured image
      root `IMG_DIR`, its listing (`None` when it does not exist), the
      listing of each existing category directory, and the text files by
      path. */
  datatype Disk = Disk(
    imgDir: string,
    root: Option<seq<Entry>>,
    folders: map<string, seq<Entry>>,
    texts: map<string, string>)

  /** The listing of a category directory, `None` when it does not exist. */
  function Listing(d: Disk, category: string): (l: Option<seq<Entry>>)
    ensures l.Some? <==> category in d.folders
  {
    if category in d.folders then Some(d.folders[category]) else None
  }

  /** What persists between requests: the saved selections and the
      session's `last_page`. */
  datatype State = State(selections: Selections, lastPage: Option<int>)

  /** The routes: `/` with its `page` query parameter, `/category/<name>`,
      `POST /select`, `POST /unselect`, and `/export-excel` with its `page`
      query parameter. */
  datatype Request =
    | Home(page: Option<string>)
    | Browse(category: string)
    | Choose(category: string, imagePath: string)
    | Unchoose(category: string)
    | ExportAll(page: Option<string>)

  /** What a request answers with: the category list page, a category's
      gallery, a redirect to a category's gallery, the spreadsheet rows
      together with the category list page shown after them, or the failure
      that aborted the request. */
  datatype Response =
    | ListPage(view: Pagination.PageView, shown: Selections)
    | Gallery(category: string, images: seq<Item>, selected: string)
    | Redirect(category: string)
    | Spreadsheet(rows: seq<Export.Row>, view: Pagination.PageView, shown: Selections)
    | Failure(error: Error)

  /** The state after a request, the response, and whether the selections
      file was written. */
  datatype Outcome = Outcome(state: State, response: Response, saved: bool)

  /** The category list page of `index()`, also shown after an export. */
  function ListView(d: Disk, raw: Option<string>, lastPage: Option<int>): (v: Pagination.PageView)
    ensures v.total == |Categories(d.root)|
    ensures v.totalPages == Pagination.TotalPages(v.total)
    ensures |v.categories| <= Pagination.PerPage
    ensures forall c :: c in v.categories ==> c in Categories(d.root)
    ensures v.page == Pagination.Clamp(Pagination.RequestedPage(Pagination.QueryPage(raw), lastPage),
                                       Pagination.TotalPages(v.total))
    ensures (v.page - 1) * Pagination.PerPage <= v.total
    ensures v.categories
         == Categories(d.root)[(v.page - 1) * Pagination.PerPage .. Pagination.Min(v.page * Pagination.PerPage, v.total)]
  {
    Pagination.Paginate(Categories(d.root), Pagination.QueryPage(raw), lastPage)
  }

  /** `category_view(category)`: the category's items in display order, or
      the failure of a folder key. */
  function GalleryOf(d: Disk, s: Selections, category: string): (r: Result<seq<Item>>)
  {
    Ordering.Arrange(Ordering.FolderKey, CategoryImages(category, Listing(d, category)), Get(s, category, ""))
  }

  /** One request. Only the two form posts change the selections, and only
      they can write the selections file; the list page and the export
      remember the page they show; a failed request changes nothing. */
  function Step(d: Disk, st: State, req: Request): (o: Outcome)
    requires Valid(st.selections)
    ensures Valid(o.state.selections)
    ensures o.saved <==> req.Choose? || (req.Unchoose? && req.category in st.selections.images)
    ensures !o.saved ==> o.state.selections == st.selections
    ensures o.response.Failure? ==> o.state == st && (req.Browse? || req.ExportAll?)
    ensures req.Home? ==> o.response.ListPage? && o.state.lastPage == Some(o.response.view.page)
                          && o.response.shown == st.selections
    ensures req.Browse? ==> o.state == st
    ensures req.Choose? ==> o.state == State(Select(st.selections, req.category, req.imagePath), st.lastPage)
                            && o.response == Redirect(req.category)
    ensures req.Unchoose? ==> o.state == State(Unselect(st.selections, req.category).0, st.lastPage)
                              && o.response == Redirect(req.category)
    ensures req.Home? ==> o.response.view == ListView(d, req.page, st.lastPage)
    ensures req.Browse? ==> (o.response.Failure? <==> GalleryOf(d, st.selections, req.category).Err?)
    ensures req.Browse? && o.response.Gallery? ==>
              && o.response.images == GalleryOf(d, st.selections, req.category).value
              && o.response.selected == Get(st.selections, req.category, "")
    ensures req.Browse? ==> o.response == (match GalleryOf(d, st.selections, req.category)
                                           case Ok(images) => Gallery(req.category, images, Get(st.selections, req.category, ""))
                                           case Err(e) => Failure(e))
    ensures req.ExportAll? ==> o.response.Spreadsheet? || o.response.Failure?
    ensures req.ExportAll? ==> (o.response.Spreadsheet? <==> ExportedRows(d, st.selections).Some?)
    ensures req.ExportAll? && o.response.Failure? ==>
              o.response.error == Export.ExportRows(d.imgDir, d.texts, st.selections).error
    ensures req.ExportAll? && o.response.Spreadsheet? ==> o.response.shown == st.selections
    ensures req.ExportAll? && o.response.Spreadsheet? ==> o.response.view == ListView(d, req.page, st.lastPage)
    ensures req.ExportAll? && o.response.Spreadsheet? ==>
              && o.state.lastPage == Some(o.response.view.page)
              && o.state.selections == st.selections
              && Some(o.response.rows) == ExportedRows(d, st.selections)
  {
    match req
    case Home(raw) =>
      var v := ListView(d, raw, st.lastPage);
      Outcome(State(st.selections, Some(v.page)), ListPage(v, st.selections), false)
    case Browse(c) =>
      (match GalleryOf(d, st.selections, c)
       case Ok(images) => Outcome(st, Gallery(c, images, Get(st.selections, c, "")), false)
       case Err(e) => Outcome(st, Failure(e), false))
    case Choose(c, p) =>
      Outcome(State(Select(st.selections, c, p), st.lastPage), Redirect(c), true)
    case Unchoose(c) =>
      var (s, saved) := Unselect(st.selections, c);
      Outcome(State(s, st.lastPage), Redirect(c), saved)
    case ExportAll(raw) =>
      match Export.ExportRows(d.imgDir, d.texts, st.selections)
      case Err(e) => Outcome(st, Failure(e), false)
      case Ok(rows) =>
        var v := ListView(d, raw, st.lastPage);
        Outcome(State(st.selections, Some(v.page)), Spreadsheet(rows, v, st.selections), false)
  }

  /** The rows an export writes, when it succeeds. */
  function ExportedRows(d: Disk, s: Selections): (r: Option<seq<Export.Row>>)
    requires Valid(s)
    ensures r.Some? ==> |r.value| == |s.order|
    ensures r.Some? ==> forall i :: 0 <= i < |s.order| ==> r.value[i].name == s.order[i]
    ensures r.Some? <==> forall i :: 0 <= i < |s.order| ==>
              Export.ExportRow(d.imgDir, d.texts, s.order[i], s.images[s.order[i]]).Ok?
    ensures r.Some? ==> forall i :: 0 <= i < |s.order| ==>
              Export.ExportRow(d.imgDir, d.texts, s.order[i], s.images[s.order[i]]) == Ok(r.value[i])
  {
    match Export.ExportRows(d.imgDir, d.texts, s)
    case Ok(rows) => Some(rows)
    case Err(_) => None
  }

  /** After a successful export the page shown is the one the list page
      would show for the same `page` parameter and session, and the session
      ends up the same. */
  lemma ExportShowsListPage(d: Disk, st: State, raw: Option<string>)
    requires Valid(st.selections)
    requires Step(d, st, ExportAll(raw)).response.Spreadsheet?
    ensures var e := Step(d, st, ExportAll(raw));
            var h := Step(d, st, Home(raw));
            e.state == h.state && e.response.view == h.response.view
  {
  }

  /** Coming back to the list page without a `page` parameter shows the
      page shown last. */
  lemma HomeAgain(d: Disk, st: State, raw: Option<string>)
    requires Valid(st.selections)
    ensures var first := Step(d, st, Home(raw));
            Step(d, first.state, Home(None)) == first
  {
    var cats := Categories(d.root);
    Pagination.RevisitSamePage(cats, Pagination.QueryPage(raw), st.lastPage);
  }

  /** Choosing the image of an item puts that item first in its category's
      gallery, with the other items sorted behind it by folder number. */
  lemma ChooseThenBrowse(d: Disk, st: State, category: string, i: nat)
    requires Valid(st.selections)
    requires var items := CategoryImages(category, Listing(d, category));
             && i < |items| && items[i].imagePath != ""
             && (forall j :: 0 <= j < i ==> items[j].imagePath != items[i].imagePath)
             && Ordering.AllKeyed(Ordering.FolderKey, items[..i] + items[i + 1..])
    ensures var items := CategoryImages(category, Listing(d, category));
            var after := Step(d, st, Choose(category, items[i].imagePath)).state;
            var g := Step(d, after, Browse(category)).response;
            && g.Gallery? && g.selected == items[i].imagePath
            && |g.images| == |items| && g.images[0] == items[i]
            && Ordering.IsStableSortBy(Ordering.FolderKey, g.images[1..], items[..i] + items[i + 1..])
  {
    var items := CategoryImages(category, Listing(d, category));
    var p := items[i].imagePath;
    var after := Step(d, st, Choose(category, p)).state;
    GetSelect(st.selections, category, p, category, "");
    Ordering.ArrangeSelected(Ordering.FolderKey, items, p, i);
  }

  /** After unchoosing, a category's gallery is all its items sorted by
      folder number. */
  lemma UnchooseThenBrowse(d: Disk, st: State, category: string)
    requires Valid(st.selections)
    requires Ordering.AllKeyed(Ordering.FolderKey, CategoryImages(category, Listing(d, category)))
    ensures var items := CategoryImages(category, Listing(d, category));
            var after := Step(d, st, Unchoose(category)).state;
            var g := Step(d, after, Browse(category)).response;
            && g.Gallery? && g.selected == ""
            && Ordering.IsStableSortBy(Ordering.FolderKey, g.images, items)
            && multiset(g.images) == multiset(items)
  {
    var items := CategoryImages(category, Listing(d, category));
    GetUnselect(st.selections, category, category, "");
    Ordering.ArrangeUnselected(Ordering.FolderKey, items);
  }

  /** Choosing an image for a new category and then unchoosing it leaves
      the selections file as it was, though it is written twice. */
  lemma ChooseThenUnchoose(d: Disk, st: State, category: string, imagePath: string)
    requires Valid(st.selections) && category !in st.selections.images
    ensures var first := Step(d, st, Choose(category, imagePath));
            var second := Step(d, first.state, Unchoose(category));
            second.state == st && first.saved && second.saved
  {
    SelectUnselectRoundTrip(st.selections, category, imagePath);
  }

  /** Choosing an image for a new category adds its row at the end of the
      next export and leaves the other rows as they were. */
  lemma ChooseThenExport(d: Disk, st: State, category: string, imagePath: string)
    requires Valid(st.selections) && category !in st.selections.images
    requires ExportedRows(d, st.selections).Some?
    requires Export.ExportRow(d.imgDir, d.texts, category, imagePath).Ok?
    ensures var after := Step(d, st, Choose(category, imagePath)).state;
            var row := Export.ExportRow(d.imgDir, d.texts, category, imagePath).value;
            ExportedRows(d, after.selections) == Some(ExportedRows(d, st.selections).value + [row])
  {
    var row := Export.RowsFrom(d.imgDir, d.texts);
    Export.RowsAfterNewSelection(row, st.selections, category, imagePath);
  }
}

=== FILE: catalog.dfy ===
/** The catalog read from the image directory tree: the top-level category
    folders, and for one category the item folders that hold the designated
    image `profile_geo.png`.

    Directory listings are inputs here. A listing is `None` when the
    directory does not exist, and otherwise the entries in the order the
    operating system returns them, which is unspecified.
 */
module Catalog {
  import opened Results
  import Lexicographic

  /** One directory entry: its name, whether it is a directory, and, for a
      directory, whether a `profile_geo.png` exists inside it. */
  datatype Entry = Entry(name: string, isDir: bool, hasProfileGeo: bool)

  /** A selectable image of a category: the item folder's name and the
      image's path relative to the image root. */
  datatype Item = Item(folder: string, imagePath: string, hasImage: bool)

  /** The file whose presence makes a folder an item. */
  const ImageFile: string := "profile_geo.png"

  /** The image path of item `folder` of `category`, relative to the image
      root. */
  function ImagePath(category: string, folder: string): string
  {
    category + "/" + folder + "/" + ImageFile
  }

  /** The names of the directories among `entries`, in listing order. */
  function DirNames(entries: seq<Entry>): (names: seq<string>)
    ensures |names| <= |entries|
    ensures |entries| == 1 ==> names == if entries[0].isDir then [entries[0].name] else []
    ensures forall n :: n in names <==> exists e :: e in entries && e.isDir && e.name == n
  {
    if |entries| == 0 then []
    else
      var rest := DirNames(entries[1..]);
      assert forall e :: e in entries <==> e == entries[0] || e in entries[1..];
      if entries[0].isDir then [entries[0].name] + rest else rest
  }

  /** `get_categories()`: the directories directly under the image root,
      sorted by name; nothing when the root is missing. Files at the top
      level are not categories. */
  function Categories(root: Option<seq<Entry>>): (r: seq<string>)
    ensures Lexicographic.Sorted(r)
    ensures root.None? ==> r == []
    ensures root.Some? ==> multiset(r) == multiset(DirNames(root.value))
    ensures forall n :: n in r <==>
              root.Some? && exists e :: e in root.value && e.isDir && e.name == n
  {
    match root
    case None => []
    case Some(entries) =>
      var r := Lexicographic.Sort(DirNames(entries));
      assert forall n :: n in r <==> n in multiset(r);
      assert forall n :: n in DirNames(entries) <==> n in multiset(DirNames(entries));
      r
  }

  /** Whether `e` is a folder that counts as an item. */
  predicate IsItemFolder(e: Entry)
  {
    e.isDir && e.hasProfileGeo
  }

  /** The item for a folder of `category`. */
  function ItemFor(category: string, folder: string): Item
  {
    Item(folder, ImagePath(category, folder), true)
  }

  /** The items of `category` found among `entries`, in listing order. */
  function ItemsOf(category: string, entries: seq<Entry>): (items: seq<Item>)
    ensures |items| <= |entries|
    ensures |entries| == 1 ==>
              items == if IsItemFolder(entries[0]) then [ItemFor(category, entries[0].name)] else []
    ensures forall it :: it in items ==>
              it.hasImage && it.imagePath == ImagePath(category, it.folder)
              && exists e :: e in entries && IsItemFolder(e) && e.name == it.folder
    ensures forall e :: e in entries && IsItemFolder(e) ==> ItemFor(category, e.name) in items
  {
    if |entries| == 0 then []
    else
      var rest := ItemsOf(category, entries[1..]);
      assert forall e :: e in entries <==> e == entries[0] || e in entries[1..];
      if IsItemFolder(entries[0]) then [ItemFor(category, entries[0].name)] + rest else rest
  }

  /** `get_category_images(category)`: the sub-directories of the category
      that contain `profile_geo.png`, each with its image path; nothing when
      the category directory is missing. Folders without the image are left
      out, as are plain files. */
  function CategoryImages(category: string, listing: Option<seq<Entry>>): (items: seq<Item>)
    ensures listing.None? ==> items == []
    ensures forall it :: it in items ==>
              && it.hasImage
              && it.imagePath == ImagePath(category, it.folder)
              && listing.Some?
              && exists e :: e in listing.value && IsItemFolder(e) && e.name == it.folder
    ensures listing.Some? ==>
              forall e :: e in listing.value && IsItemFolder(e) ==> ItemFor(category, e.name) in items
  {
    match listing
    case None => []
    case Some(entries) => ItemsOf(category, entries)
  }

  /** The items of a listing are those of its first part followed by those
      of the rest: the listing order is kept and every entry is judged on
      its own. */
  lemma {:induction false} ItemsOfAppend(category: string, a: seq<Entry>, b: seq<Entry>)
    ensures ItemsOf(category, a + b) == ItemsOf(category, a) + ItemsOf(category, b)
  {
    if |a| > 0 {
      assert (a + b)[1..] == a[1..] + b;
      ItemsOfAppend(category, a[1..], b);
    } else {
      assert a + b == b;
    }
  }

  /** The directory names of a listing are those of its first part
      followed by those of the rest: with the one-entry case of `DirNames`,
      every directory is kept once, in listing order. */
  lemma {:induction false} DirNamesAppend(a: seq<Entry>, b: seq<Entry>)
    ensures DirNames(a + b) == DirNames(a) + DirNames(b)
  {
    if |a| > 0 {
      assert (a + b)[1..] == a[1..] + b;
      DirNamesAppend(a[1..], b);
    } else {
      assert a + b == b;
    }
  }

  /** The category listing is exactly what Python's `sorted` returns, since
      there is only one ascending arrangement of the directory names. */
  lemma CategoriesAreSortedNames(entries: seq<Entry>, sorted: seq<string>)
    requires Lexicographic.Sorted(sorted)
    requires multiset(sorted) == multiset(DirNames(entries))
    ensures Categories(Some(entries)) == sorted
  {
    Lexicographic.SortedUnique(Categories(Some(entries)), sorted);
  }
}

=== FILE: export.dfy ===
/** The rows of the spreadsheet export.

    For every selection, in the order of the selections, the export reads
    the text file stored next to the selected image (same path, `.png`
    replaced by `.txt`) and writes a row with the category, a search token
    taken from the image's folder name, and the stripped text of that file.
    The file system is a map from paths to file contents here; a path missing
    from the map cannot be opened.
 */
module Export {
  import opened Results
  import opened Text
  import Catalog
  import opened Selections

  /** Python's `os.path.join(a, b)` on POSIX: an absolute `b` replaces `a`;
      otherwise a `/` goes between them unless `a` is empty or already ends
      with one. */
  function PathJoin(a: string, b: string): (p: string)
    ensures |b| > 0 && b[0] == '/' ==> p == b
    ensures (|b| == 0 || b[0] != '/') && |a| > 0 && a[|a| - 1] != '/' ==> p == a + "/" + b
    ensures (|b| == 0 || b[0] != '/') && (|a| == 0 || a[|a| - 1] == '/') ==> p == a + b
  {
    if |b| > 0 && b[0] == '/' then b
    else if |a| == 0 || a[|a| - 1] == '/' then a + b
    else a + "/" + b
  }

  /** The sidecar text file of an image: the joined path with every `.png`
      replaced by `.txt`, wherever it occurs in the path. */
  function SidecarPath(imgDir: string, imagePath: string): (p: string)
    ensures |p| == |PathJoin(imgDir, imagePath)|
  {
    ReplaceAll(PathJoin(imgDir, imagePath), ".png", ".txt")
  }

  /** If the replaced text starts with a dot-free `w`, so does the original:
      a replacement starts with a dot. */
  lemma {:induction false} ReplacedPrefix(t: string, w: string)
    requires '.' !in w
    requires |w| <= |ReplaceAll(t, ".png", ".txt")|
    requires ReplaceAll(t, ".png", ".txt")[..|w|] == w
    ensures |w| <= |t| && t[..|w|] == w
    decreases |t|
  {
    var r := ReplaceAll(t, ".png", ".txt");
    if |t| >= 4 && |w| > 0 {
      if t[..4] == ".png" {
        HeadNotDot(w);
        assert false;
      } else {
        var r' := ReplaceAll(t[1..], ".png", ".txt");
        assert r == [t[0]] + r';
        assert r'[..|w| - 1] == w[1..];
        ReplacedPrefix(t[1..], w[1..]);
        assert t[..|w|] == [t[0]] + t[1..][..|w| - 1];
      }
    }
  }

  lemma HeadNotDot(w: string)
    requires '.' !in w && |w| > 0
    ensures w[0] != '.'
  {
    assert w[0] in w;
  }

  /** No `.png` is left after the replacement, not even one formed across a
      replaced occurrence. */
  lemma {:induction false} NoPngLeft(s: string)
    ensures !Occurs(ReplaceAll(s, ".png", ".txt"), ".png")
    decreases |s|
  {
    if |s| >= 4 {
      if s[..4] == ".png" {
        NoPngLeft(s[4..]);
        NoPngAfterTxt(ReplaceAll(s[4..], ".png", ".txt"));
      } else {
        NoPngLeft(s[1..]);
        ReplaceSkip(s, ".png", ".txt");
        NoPngAfterChar(s, ReplaceAll(s[1..], ".png", ".txt"));
      }
    }
  }

  /** A `.txt` in front of text without `.png` forms none. */
  lemma NoPngAfterTxt(rest: string)
    requires !Occurs(rest, ".png")
    ensures !Occurs(".txt" + rest, ".png")
  {
    var r := ".txt" + rest;
    forall i | 0 <= i <= |r| - 4
      ensures !MatchAt(r, ".png", i)
    {
      if i >= 4 {
        assert r[i..i + 4] == rest[i - 4..i];
        assert !MatchAt(rest, ".png", i - 4);
      } else {
        assert r[i..i + 4][0] == r[i];
      }
    }
  }

  /** The first character of text that does not start with `.png`, in
      front of the replaced rest, forms no `.png`. */
  lemma NoPngAfterChar(s: string, rest: string)
    requires |s| >= 4 && s[..4] != ".png"
    requires rest == ReplaceAll(s[1..], ".png", ".txt") && !Occurs(rest, ".png")
    ensures !Occurs([s[0]] + rest, ".png")
  {
    var r := [s[0]] + rest;
    assert r[1..] == rest;
    forall i | 0 <= i <= |r| - 4
      ensures !MatchAt(r, ".png", i)
    {
      if i >= 1 {
        assert r[i..i + 4] == rest[i - 1..i + 3];
        assert !MatchAt(rest, ".png", i - 1);
      } else if MatchAt(r, ".png", 0) {
        assert r[..4] == ".png";
        assert rest[..3] == r[1..4] == ".png"[1..];
        ReplacedPrefix(s[1..], "png");
      }
    }
  }

  /** The sidecar path of any image contains no `.png`. */
  lemma SidecarHasNoPng(imgDir: string, imagePath: string)
    ensures !Occurs(SidecarPath(imgDir, imagePath), ".png")
  {
    NoPngLeft(PathJoin(imgDir, imagePath));
  }

  /** The sidecar path is the joined image path with exactly its `.png`
      windows rewritten: a character differs only inside a window where the
      joined path reads `.png` and the sidecar path reads `.txt`, and every
      `.png` of the joined path reads `.txt` in the sidecar path. */
  lemma SidecarWindows(imgDir: string, imagePath: string)
    ensures var j := PathJoin(imgDir, imagePath);
            var p := SidecarPath(imgDir, imagePath);
            && |p| == |j|
            && (forall i :: 0 <= i < |j| ==> p[i] == j[i] || InReplacedWindow(j, p, ".png", ".txt", i))
            && (forall k :: MatchAt(j, ".png", k) ==> MatchAt(p, ".txt", k))
  {
    var j := PathJoin(imgDir, imagePath);
    ReplaceChangesWindows(j, ".png", ".txt");
    assert HeadOnce(".png");
    ReplaceEveryWindow(j, ".png", ".txt");
  }

  /** Text before which no `.` occurs is copied as it is. */
  lemma DotFreePrefix(x: string, y: string)
    requires '.' !in x
    ensures ReplaceAll(x + y, ".png", ".txt") == x + ReplaceAll(y, ".png", ".txt")
  {
    ReplaceAfterPlain(x, y, ".png", ".txt");
  }

  /** A dot-free name followed by `.png` becomes the name followed by
      `.txt`. */
  lemma PngBecomesTxt(stem: string)
    requires '.' !in stem
    ensures ReplaceAll(stem + ".png", ".png", ".txt") == stem + ".txt"
  {
    DotFreePrefix(stem, ".png");
    ReplaceWhole(".png", ".txt");
  }

  /** The designated image's sidecar is `profile_geo.txt`. */
  lemma ImageFileSidecar()
    ensures ReplaceAll(Catalog.ImageFile, ".png", ".txt") == "profile_geo.txt"
  {
    var stem := "profile_geo";
    assert Catalog.ImageFile == stem + ".png";
    PngBecomesTxt(stem);
    SidecarName();
  }

  /** The name of the designated sidecar, spelt out. */
  lemma SidecarName()
    ensures "profile_geo" + ".txt" == "profile_geo.txt"
  {
  }

  /** The sidecar of an item replaces `.png` in the image root, the
      category and the folder name each on its own, since `/` cannot be
      part of a `.png`. */
  lemma ItemSidecarParts(imgDir: string, category: string, folder: string)
    requires |imgDir| > 0 && imgDir[|imgDir| - 1] != '/'
    requires |category| > 0 && category[0] != '/'
    ensures SidecarPath(imgDir, Catalog.ImagePath(category, folder))
         == ReplaceAll(imgDir, ".png", ".txt") + "/" + ReplaceAll(category, ".png", ".txt") + "/"
          + ReplaceAll(folder, ".png", ".txt") + "/" + "profile_geo.txt"
  {
    var img := Catalog.ImageFile;
    var ip := Catalog.ImagePath(category, folder);
    assert ip[0] == category[0];
    assert PathJoin(imgDir, ip) == imgDir + "/" + ip;
    SlashAssoc(imgDir, category, folder, img);
    ReplaceSlashed(imgDir, category, folder, img, ".png", ".txt");
    ImageFileSidecar();
  }

  /** Joining a root to a three-part path gives a four-part path. */
  lemma SlashAssoc(a: string, b: string, c: string, d: string)
    ensures a + "/" + (b + "/" + c + "/" + d) == a + "/" + b + "/" + c + "/" + d
  {
  }

  /** For an item of a category under an image root whose names contain no
      `.png`, the sidecar is `profile_geo.txt` in the item's folder. */
  lemma ItemSidecar(imgDir: string, category: string, folder: string)
    requires |imgDir| > 0 && imgDir[|imgDir| - 1] != '/'
    requires |category| > 0 && category[0] != '/'
    requires !Occurs(imgDir, ".png") && !Occurs(category, ".png") && !Occurs(folder, ".png")
    ensures SidecarPath(imgDir, Catalog.ImagePath(category, folder))
         == imgDir + "/" + category + "/" + folder + "/" + "profile_geo.txt"
  {
    ItemSidecarParts(imgDir, category, folder);
    ReplaceAbsent(imgDir, ".png", ".txt");
    ReplaceAbsent(category, ".png", ".txt");
    ReplaceAbsent(folder, ".png", ".txt");
  }

  /** A category whose name ends in `.png` is rewritten too, so the sidecar
      is looked for under a category directory that does not exist: for
      category `a.png` the export opens `a.txt/...`. */
  lemma CategoryNamedPng(imgDir: string, stem: string, folder: string)
    requires |imgDir| > 0 && imgDir[|imgDir| - 1] != '/'
    requires |stem| > 0 && stem[0] != '/' && '.' !in stem
    requires !Occurs(imgDir, ".png") && !Occurs(folder, ".png")
    ensures SidecarPath(imgDir, Catalog.ImagePath(stem + ".png", folder))
         == imgDir + "/" + (stem + ".txt") + "/" + folder + "/" + "profile_geo.txt"
  {
    ItemSidecarParts(imgDir, stem + ".png", folder);
    ReplaceAbsent(imgDir, ".png", ".txt");
    ReplaceAbsent(folder, ".png", ".txt");
    PngBecomesTxt(stem);
  }

  /** `image_path.split('/')[1].split('.')[1]`: the text after the first `.`
      of the second path segment, up to the next `.`; nothing when either
      index is out of range (an `IndexError` in the source). */
  function SearchToken(imagePath: string): (r: Option<string>)
    ensures r.Some? <==> '/' in imagePath && '.' in Split(imagePath, '/')[1]
    ensures r.Some? ==> '.' !in r.value
  {
    var segments := Split(imagePath, '/');
    if |segments| < 2 then None
    else
      var parts := Split(segments[1], '.');
      if |parts| < 2 then None
      else
        Some(parts[1])
  }

  /** A path whose first two segments are `category` and `folder`. */
  lemma SecondSegment(category: string, folder: string, rest: string)
    requires '/' !in category && '/' !in folder
    ensures var parts := Split(category + "/" + folder + "/" + rest, '/');
            |parts| >= 2 && parts[1] == folder
  {
    var inner := folder + ['/'] + rest;
    SlashPair(category, folder, rest);
    SplitCons(category, '/', inner);
    SplitCons(folder, '/', rest);
    SecondOfCons(category, folder, Split(rest, '/'));
  }

  /** The second of `[a] + ([b] + t)` is `b`. */
  lemma SecondOfCons(a: string, b: string, t: seq<string>)
    ensures |[a] + ([b] + t)| >= 2 && ([a] + ([b] + t))[1] == b
  {
  }

  /** Regrouping a path of three parts around its first `/`. */
  lemma SlashPair(a: string, b: string, c: string)
    ensures a + "/" + b + "/" + c == a + ['/'] + (b + ['/'] + c)
  {
  }

  /** The token depends on the second path segment alone. */
  lemma TokenOfSegment(path: string, folder: string)
    requires |Split(path, '/')| >= 2 && Split(path, '/')[1] == folder
    ensures SearchToken(path) == if '.' in folder then Some(Split(folder, '.')[1]) else None
  {
  }

  /** The token of a path whose first two segments are `category` and
      `folder` comes from the folder name alone: the piece between its first
      and second `.`, and there is none when the folder name has no `.`. */
  lemma TokenOfPath(category: string, folder: string, rest: string)
    requires '/' !in category && '/' !in folder
    ensures SearchToken(category + "/" + folder + "/" + rest)
         == if '.' in folder then Some(Split(folder, '.')[1]) else None
  {
    SecondSegment(category, folder, rest);
    TokenOfSegment(category + "/" + folder + "/" + rest, folder);
  }

  /** The token of an item's image path is taken from the item's folder
      name; the category plays no part. */
  lemma ItemToken(category: string, folder: string)
    requires '/' !in category && '/' !in folder
    ensures SearchToken(Catalog.ImagePath(category, folder))
         == if '.' in folder then Some(Split(folder, '.')[1]) else None
  {
    TokenOfPath(category, folder, Catalog.ImageFile);
  }

  /** A folder named by a number, a `.` and a word with no further `.`
      gives that word as its token. */
  lemma NumberedFolderToken(category: string, number: string, word: string)
    requires '/' !in category && '/' !in number && '/' !in word
    requires '.' !in number && '.' !in word
    ensures SearchToken(Catalog.ImagePath(category, number + "." + word)) == Some(word)
  {
    var folder := number + "." + word;
    assert folder == number + ['.'] + word;
    assert '.' in folder by { assert folder[|number|] == '.'; }
    ItemToken(category, folder);
    SplitCons(number, '.', word);
    SplitNone(word, '.');
  }

  /** A folder name with no `.` gives no token. */
  lemma UndottedFolderToken(category: string, folder: string)
    requires '/' !in category && '/' !in folder && '.' !in folder
    ensures SearchToken(Catalog.ImagePath(category, folder)) == None
  {
    ItemToken(category, folder);
  }

  /** One spreadsheet row: `名称`, `搜索结果` and `profile_geo`. */
  datatype Row = Row(name: string, searchResult: string, profileGeo: string)

  /** The row for one selection, or the failure that aborts the export: the
      sidecar is read first, then the token is taken. */
  function ExportRow(imgDir: string, files: map<string, string>, category: string, imagePath: string): (r: Result<Row>)
    ensures var path := SidecarPath(imgDir, imagePath);
            && (r.Ok? <==> path in files && SearchToken(imagePath).Some?)
            && (path !in files ==> r == Err(MissingSidecar(path)))
            && (path in files && SearchToken(imagePath).None? ==> r == Err(MissingTokenSegment(imagePath)))
            && (r.Ok? ==> && r.value.name == category
                          && Some(r.value.searchResult) == SearchToken(imagePath)
                          && r.value.profileGeo == Strip(files[path]))
  {
    var path := SidecarPath(imgDir, imagePath);
    if path !in files then Err(MissingSidecar(path))
    else
      match SearchToken(imagePath)
      case None => Err(MissingTokenSegment(imagePath))
      case Some(token) => Ok(Row(category, token, Strip(files[path])))
  }

  /** The row of an item whose folder is named `<number>.<word>`: the
      selection's category, `word` as the search result and the stripped
      text of `profile_geo.txt` in that folder; the export fails when that
      file is missing. */
  lemma ExportItemRow(imgDir: string, files: map<string, string>, name: string,
                      category: string, number: string, word: string)
    requires |imgDir| > 0 && imgDir[|imgDir| - 1] != '/' && !Occurs(imgDir, ".png")
    requires |category| > 0 && category[0] != '/' && '/' !in category && !Occurs(category, ".png")
    requires '/' !in number && '/' !in word && '.' !in number && '.' !in word
    requires !Occurs(number + "." + word, ".png")
    ensures var side := imgDir + "/" + category + "/" + (number + "." + word) + "/" + "profile_geo.txt";
            ExportRow(imgDir, files, name, Catalog.ImagePath(category, number + "." + word))
              == if side in files then Ok(Row(name, word, Strip(files[side])))
                 else Err(MissingSidecar(side))
  {
    ItemSidecar(imgDir, category, number + "." + word);
    NumberedFolderToken(category, number, word);
  }

  /** Example: the selection of category `A` with the image
      `cat1/5.item/profile_geo.png` gives the row `A`, `item` and the
      stripped text of `cat1/5.item/profile_geo.txt` under the image root. */
  lemma ExportRowExample(imgDir: string, files: map<string, string>)
    requires |imgDir| > 0 && imgDir[|imgDir| - 1] != '/' && !Occurs(imgDir, ".png")
    requires imgDir + "/cat1/5.item/profile_geo.txt" in files
    ensures ExportRow(imgDir, files, "A", "cat1/5.item/profile_geo.png")
         == Ok(Row("A", "item", Strip(files[imgDir + "/cat1/5.item/profile_geo.txt"])))
  {
    ExampleNames();
    ExampleSidecar(imgDir);
    ExportItemRow(imgDir, files, "A", "cat1", "5", "item");
  }

  /** The names in `ExportRowExample` hold no `.png`, and its image path is
      that of item `5.item` of `cat1`. */
  lemma ExampleNames()
    ensures !Occurs("cat1", ".png") && !Occurs("5" + "." + "item", ".png")
    ensures Catalog.ImagePath("cat1", "5" + "." + "item") == "cat1/5.item/profile_geo.png"
  {
    ExampleFolder();
    NoPngWhere("cat1");
    NoPngWhere("5.item");
  }

  /** The folder name of `ExportRowExample`, written out. */
  lemma ExampleFolder()
    ensures "5" + "." + "item" == "5.item"
    ensures Catalog.ImagePath("cat1", "5.item") == "cat1/5.item/profile_geo.png"
  {
  }

  /** Text in which no `.` is followed by a `p` holds no `.png`. */
  lemma NoPngWhere(x: string)
    requires forall i :: 0 <= i < |x| - 1 && x[i] == '.' ==> x[i + 1] != 'p'
    ensures !Occurs(x, ".png")
  {
    forall i | 0 <= i <= |x| - 4
      ensures !MatchAt(x, ".png", i)
    {
      assert x[i..i + 4][0] == x[i] && x[i..i + 4][1] == x[i + 1];
    }
  }

  /** The sidecar path of `ExportRowExample`, written out. */
  lemma ExampleSidecar(imgDir: string)
    ensures imgDir + "/" + "cat1" + "/" + ("5" + "." + "item") + "/" + "profile_geo.txt"
         == imgDir + "/cat1/5.item/profile_geo.txt"
  {
  }

  /** How one selection becomes a row: from its category and image path
      to the row or the failure. */
  type RowFn = (string, string) -> Result<Row>

  /** `ExportRow` for a fixed image root and file system. */
  function RowsFrom(imgDir: string, files: map<string, string>): (row: RowFn)
    ensures forall c, p :: row(c, p) == ExportRow(imgDir, files, c, p)
  {
    (c, p) => ExportRow(imgDir, files, c, p)
  }

  /** Every category of `order` has an image. */
  predicate AllChosen(images: map<string, string>, order: seq<string>)
  {
    forall i :: 0 <= i < |order| ==> order[i] in images
  }

  /** The outcome of each selection of `order`, in that order. */
  function Outcomes(row: RowFn, images: map<string, string>, order: seq<string>): (rs: seq<Result<Row>>)
    requires AllChosen(images, order)
    ensures |rs| == |order|
    ensures forall i :: 0 <= i < |order| ==> rs[i] == row(order[i], images[order[i]])
  {
    seq(|order|, i requires 0 <= i < |order| => row(order[i], images[order[i]]))
  }

  /** `export_excel`'s loop: one row per selection, in the order of the
      selections; the first selection without a row aborts the export with
      its failure. */
  function Rows(row: RowFn, s: Selections): (r: Result<seq<Row>>)
    requires Valid(s)
    ensures r.Ok? <==> forall i :: 0 <= i < |s.order| ==> row(s.order[i], s.images[s.order[i]]).Ok?
    ensures r.Ok? ==> |r.value| == |s.order|
    ensures r.Ok? ==> forall i :: 0 <= i < |s.order| ==> row(s.order[i], s.images[s.order[i]]) == Ok(r.value[i])
    ensures r.Err? ==> var i := FirstErr(Outcomes(row, s.images, s.order));
                       && i < |s.order|
                       && row(s.order[i], s.images[s.order[i]]).Err?
                       && (forall j :: 0 <= j < i ==> row(s.order[j], s.images[s.order[j]]).Ok?)
                       && r.error == row(s.order[i], s.images[s.order[i]]).error
  {
    var o := Outcomes(row, s.images, s.order);
    var r := Collect(o);
    assert r.Err? ==> var i := FirstErr(o); o[i] == row(s.order[i], s.images[s.order[i]]);
    r
  }

  /** The export's rows: a row for each selection, named by its category,
      in the order of the selections. */
  function ExportRows(imgDir: string, files: map<string, string>, s: Selections): (r: Result<seq<Row>>)
    requires Valid(s)
    ensures r.Ok? ==> |r.value| == |s.order|
    ensures r.Ok? ==> forall i :: 0 <= i < |s.order| ==> r.value[i].name == s.order[i]
    ensures r.Ok? <==> forall i :: 0 <= i < |s.order| ==> ExportRow(imgDir, files, s.order[i], s.images[s.order[i]]).Ok?
    ensures r.Ok? ==> forall i :: 0 <= i < |s.order| ==>
              ExportRow(imgDir, files, s.order[i], s.images[s.order[i]]) == Ok(r.value[i])
  {
    Rows(RowsFrom(imgDir, files), s)
  }

  /** Choosing an image for a category not chosen before adds its row at
      the end of the export and changes no other row. */
  lemma RowsAfterNewSelection(row: RowFn, s: Selections, c: string, p: string)
    requires Valid(s) && c !in s.images
    requires Rows(row, s).Ok? && row(c, p).Ok?
    ensures Rows(row, Select(s, c, p)) == Ok(Rows(row, s).value + [row(c, p).value])
  {
    var t := Select(s, c, p);
    var before := Outcomes(row, s.images, s.order);
    var after := Outcomes(row, t.images, t.order);
    assert after == before + [row(c, p)];
    CollectAppend(before, [row(c, p)]);
    CollectOne(row(c, p));
  }

  /** Choosing a new image for a category already chosen changes its row
      only, in place. */
  lemma RowsAfterReselection(row: RowFn, s: Selections, i: nat, p: string)
    requires Valid(s) && i < |s.order|
    requires Rows(row, s).Ok? && row(s.order[i], p).Ok?
    ensures Rows(row, Select(s, s.order[i], p)) == Ok(Rows(row, s).value[i := row(s.order[i], p).value])
  {
    var c := s.order[i];
    OutcomesUpdate(row, s.images, s.order, i, p);
    CollectUpdate(Outcomes(row, s.images, s.order), i, row(c, p).value);
  }

  /** A new image for the category at position `i` changes its outcome
      only. */
  lemma OutcomesUpdate(row: RowFn, images: map<string, string>, order: seq<string>, i: nat, p: string)
    requires AllChosen(images, order) && Distinct(order) && i < |order|
    ensures AllChosen(images[order[i] := p], order)
    ensures Outcomes(row, images[order[i] := p], order)
         == Outcomes(row, images, order)[i := row(order[i], p)]
  {
    var c := order[i];
    forall j | 0 <= j < |order| && j != i ensures order[j] != c {
    }
  }

  /** Cutting one category out of the order cuts its outcome out of the
      outcomes, when the other categories keep their images. */
  lemma OutcomesCut(row: RowFn, images: map<string, string>, kept: map<string, string>, order: seq<string>, i: nat)
    requires AllChosen(images, order) && i < |order|
    requires forall j :: 0 <= j < |order| && j != i ==> order[j] in kept && kept[order[j]] == images[order[j]]
    ensures AllChosen(kept, order[..i] + order[i + 1..])
    ensures var o := Outcomes(row, images, order);
            Outcomes(row, kept, order[..i] + order[i + 1..]) == o[..i] + o[i + 1..]
  {
    var cut := order[..i] + order[i + 1..];
    assert forall j :: 0 <= j < |cut| ==> cut[j] == order[if j < i then j else j + 1];
  }

  /** Unselecting a category drops its outcome and keeps the others in
      order. */
  lemma OutcomesAfterUnselect(row: RowFn, s: Selections, i: nat)
    requires Valid(s) && i < |s.order|
    ensures var o := Outcomes(row, s.images, s.order);
            var t := Unselect(s, s.order[i]).0;
            Outcomes(row, t.images, t.order) == o[..i] + o[i + 1..]
  {
    var c := s.order[i];
    var t := Unselect(s, c).0;
    UnselectRemovesAt(s, i);
    forall j | 0 <= j < |s.order| && j != i
      ensures s.order[j] in t.images && t.images[s.order[j]] == s.images[s.order[j]]
    {
      assert s.order[j] != c;
    }
    OutcomesCut(row, s.images, t.images, s.order, i);
  }

  /** Unselecting a category drops its row and keeps the others in order. */
  lemma RowsAfterUnselect(row: RowFn, s: Selections, i: nat)
    requires Valid(s) && i < |s.order|
    requires Rows(row, s).Ok?
    ensures var rows := Rows(row, s).value;
            Rows(row, Unselect(s, s.order[i]).0) == Ok(rows[..i] + rows[i + 1..])
  {
    OutcomesAfterUnselect(row, s, i);
    CollectRemoveAt(Outcomes(row, s.images, s.order), i);
  }
}

=== FILE: lexicographic.dfy ===
/** Python's ordering of `str` values (code point by code point, a proper
    prefix first) and `sorted()` on a list of strings.
 */
module Lexicographic {

  /** Python's `a <= b` on strings. */
  predicate Le(a: string, b: string)
  {
    |a| == 0 || (|b| > 0 && (a[0] < b[0] || (a[0] == b[0] && Le(a[1..], b[1..]))))
  }

  /** Every string is at most itself. */
  lemma {:induction false} LeReflexive(a: string)
    ensures Le(a, a)
  {
    if |a| > 0 {
      LeReflexive(a[1..]);
    }
  }

  /** Any two strings are ordered one way or the other. */
  lemma {:induction false} LeTotal(a: string, b: string)
    ensures Le(a, b) || Le(b, a)
  {
    if |a| > 0 && |b| > 0 && a[0] == b[0] {
      LeTotal(a[1..], b[1..]);
    }
  }

  /** Two strings each at most the other are equal. */
  lemma {:induction false} LeAntisymmetric(a: string, b: string)
    requires Le(a, b) && Le(b, a)
    ensures a == b
  {
    if |a| > 0 && |b| > 0 {
      LeAntisymmetric(a[1..], b[1..]);
      assert a == [a[0]] + a[1..] && b == [b[0]] + b[1..];
    }
  }

  /** The order is transitive. */
  lemma {:induction false} LeTransitive(a: string, b: string, c: string)
    requires Le(a, b) && Le(b, c)
    ensures Le(a, c)
  {
    if |a| > 0 && |b| > 0 && |c| > 0 && a[0] == b[0] && b[0] == c[0] {
      LeTransitive(a[1..], b[1..], c[1..]);
    }
  }

  /** Ascending order, every pair compared. */
  predicate Sorted(s: seq<string>)
  {
    forall i, j :: 0 <= i < j < |s| ==> Le(s[i], s[j])
  }

  /** `x` placed into sorted `s` before the first element it does not
      exceed. */
  function Insert(x: string, s: seq<string>): (r: seq<string>)
    requires Sorted(s)
    ensures Sorted(r)
    ensures multiset(r) == multiset(s) + multiset{x}
  {
    if |s| == 0 then [x]
    else if Le(x, s[0]) then
      assert forall j :: 0 < j < |s| ==> Le(x, s[j]) by {
        forall j | 0 < j < |s| ensures Le(x, s[j]) {
          LeTransitive(x, s[0], s[j]);
        }
      }
      [x] + s
    else
      var rest := Insert(x, s[1..]);
      LeTotal(x, s[0]);
      LowerBound(s[0], x, s[1..], rest);
      SortedCons(s[0], rest);
      assert s == [s[0]] + s[1..];
      [s[0]] + rest
  }

  /** A string no greater than `x` and than every element of `s` is no
      greater than any element of a rearrangement of `s` with `x` added. */
  lemma LowerBound(m: string, x: string, s: seq<string>, rest: seq<string>)
    requires Le(m, x) && Sorted([m] + s)
    requires multiset(rest) == multiset(s) + multiset{x}
    ensures forall j :: 0 <= j < |rest| ==> Le(m, rest[j])
  {
    forall j | 0 <= j < |rest| ensures Le(m, rest[j]) {
      assert rest[j] in multiset(rest);
      if rest[j] != x {
        assert rest[j] in multiset(s);
        var k :| 0 <= k < |s| && s[k] == rest[j];
        assert ([m] + s)[0] == m && ([m] + s)[k + 1] == rest[j];
      }
    }
  }

  /** A string no greater than every element of an ascending sequence can
      go in front of it. */
  lemma SortedCons(m: string, s: seq<string>)
    requires Sorted(s) && forall j :: 0 <= j < |s| ==> Le(m, s[j])
    ensures Sorted([m] + s)
  {
  }

  /** Python's `sorted(names)`: the names in ascending order. */
  function Sort(s: seq<string>): (r: seq<string>)
    ensures Sorted(r)
    ensures multiset(r) == multiset(s)
  {
    if |s| == 0 then []
    else
      assert s == [s[0]] + s[1..];
      Insert(s[0], Sort(s[1..]))
  }

  /** Two ascending arrangements of the same strings start alike. */
  lemma SortedHeads(a: seq<string>, b: seq<string>)
    requires Sorted(a) && Sorted(b)
    requires |a| > 0 && multiset(a) == multiset(b)
    ensures |b| > 0 && a[0] == b[0]
  {
    assert a[0] in multiset(b);
    var i :| 0 <= i < |b| && b[i] == a[0];
    assert b[0] in multiset(a);
    var j :| 0 <= j < |a| && a[j] == b[0];
    if i == 0 {
      LeReflexive(b[0]);
    }
    if j == 0 {
      LeReflexive(a[0]);
    }
    assert Le(b[0], a[0]) && Le(a[0], b[0]);
    LeAntisymmetric(a[0], b[0]);
  }

  /** Removing the first element keeps the rest of the collection. */
  lemma TailMultiset(a: seq<string>)
    requires |a| > 0
    ensures multiset(a[1..]) == multiset(a) - multiset{a[0]}
  {
    assert a == [a[0]] + a[1..];
  }

  /** There is only one ascending arrangement of a collection of strings, so
      `Sort` is the same as any other correct sort (Python's `sorted`
      included). */
  lemma {:induction false} SortedUnique(a: seq<string>, b: seq<string>)
    requires Sorted(a) && Sorted(b)
    requires multiset(a) == multiset(b)
    ensures a == b
    decreases |a|
  {
    if |a| > 0 {
      SortedHeads(a, b);
      TailMultiset(a);
      TailMultiset(b);
      SortedUnique(a[1..], b[1..]);
      assert a == [a[0]] + a[1..] && b == [b[0]] + b[1..];
    } else {
      assert |b| == |multiset(b)| == 0;
    }
  }
}

=== FILE: numbers.dfy ===
/** Python's `int()` applied to a string (base 10), and its inverse, the
    decimal rendering of an integer.

    `int()` skips whitespace around the number, accepts one optional sign,
    and reads ASCII digits that may be grouped by single underscores
    (`"1_000"`); leading zeros are allowed. CPython 3.11 and later, and
    the 3.10.7, 3.9.14, 3.8.14 and 3.7.14 security releases, also refuse a
    decimal string of more than 4300 digits (underscores not counted), the
    default `sys.int_info.default_max_str_digits`. Anything
    else raises `ValueError`, modelled here as `None`.
 */
module Numbers {
  import opened Results
  import Text

  predicate IsDigit(c: char)
  {
    '0' <= c <= '9'
  }

  predicate AllDigits(s: string)
  {
    forall i :: 0 <= i < |s| ==> IsDigit(s[i])
  }

  function DigitValue(c: char): (d: nat)
    requires IsDigit(c)
    ensures d < 10
  {
    (c as int) - ('0' as int)
  }

  function DigitChar(d: nat): (c: char)
    requires d < 10
    ensures IsDigit(c) && DigitValue(c) == d
  {
    (('0' as int) + d) as char
  }

  /** The value of a string of digits, most significant first. */
  function DecimalValue(ds: string): nat
    requires AllDigits(ds)
  {
    if |ds| == 0 then 0
    else DecimalValue(ds[..|ds| - 1]) * 10 + DigitValue(ds[|ds| - 1])
  }

  /** The digits of a decimal integer as `int()` accepts them: ASCII digits,
      where single underscores may separate two digits. */
  predicate IsDigitGroups(s: string)
  {
    && |s| > 0 && IsDigit(s[0]) && IsDigit(s[|s| - 1])
    && (forall i :: 0 <= i < |s| ==> IsDigit(s[i]) || s[i] == '_')
    && (forall i :: 0 <= i < |s| - 1 ==> s[i] == '_' ==> s[i + 1] != '_')
  }

  /** `s` without its underscores. */
  function DropUnderscores(s: string): (d: string)
    ensures |d| <= |s|
    ensures (forall i :: 0 <= i < |s| ==> IsDigit(s[i]) || s[i] == '_') ==> AllDigits(d)
    ensures AllDigits(s) ==> d == s
  {
    if |s| == 0 then ""
    else if s[0] == '_' then DropUnderscores(s[1..])
    else [s[0]] + DropUnderscores(s[1..])
  }

  /** The value of a valid digit string. */
  function GroupsValue(s: string): nat
    requires IsDigitGroups(s)
  {
    DecimalValue(DropUnderscores(s))
  }

  /** The most digits `int()` converts from a decimal string. */
  const MaxStrDigits: nat := 4300

  /** A valid digit string short enough for `int()` to convert. */
  predicate Convertible(s: string)
  {
    IsDigitGroups(s) && |DropUnderscores(s)| <= MaxStrDigits
  }

  /** Python's `int(s)`: `Some(n)` when `int(s)` returns `n`, `None` when it
      raises `ValueError`. */
  function ParseInt(s: string): Option<int>
  {
    var t := Text.TrimBoth(s, Text.IsIntSpace);
    if |t| > 0 && (t[0] == '+' || t[0] == '-') then
      var body := t[1..];
      if Convertible(body) then
        var v: int := GroupsValue(body);
        Some(if t[0] == '-' then -v else v)
      else None
    else if Convertible(t) then Some(GroupsValue(t))
    else None
  }

  /** The characters that may appear in text `int()` accepts. */
  predicate IntChar(c: char)
  {
    IsDigit(c) || c == '+' || c == '-' || c == '_' || Text.IsIntSpace(c)
  }

  /** Text that `int()` accepts is made of whitespace, signs, digits and
      underscores only. */
  lemma ParseAccepts(s: string)
    ensures ParseInt(s).Some? ==> forall i :: 0 <= i < |s| ==> IntChar(s[i])
  {
    if ParseInt(s).Some? {
      TrimmedChars(s);
      UntrimmedChars(s);
    }
  }

  /** When the stripped text has only `int()` characters, so has the text. */
  lemma UntrimmedChars(s: string)
    requires var t := Text.TrimBoth(s, Text.IsIntSpace);
             forall j :: 0 <= j < |t| ==> IntChar(t[j])
    ensures forall i :: 0 <= i < |s| ==> IntChar(s[i])
  {
    Text.TrimBothSlice(s, Text.IsIntSpace);
    PaddedChars(s, |s| - |Text.TrimLeft(s, Text.IsIntSpace)|, Text.TrimBoth(s, Text.IsIntSpace));
  }

  /** Whitespace around text of `int()` characters leaves only such
      characters. */
  lemma PaddedChars(s: string, lead: int, t: string)
    requires Text.Padded(s, lead, t, Text.IsIntSpace)
    requires forall j :: 0 <= j < |t| ==> IntChar(t[j])
    ensures forall i :: 0 <= i < |s| ==> IntChar(s[i])
  {
    forall i | 0 <= i < |s| ensures IntChar(s[i]) {
      if i < lead {
        assert s[..lead][i] == s[i];
      } else if i < lead + |t| {
        assert s[lead..lead + |t|][i - lead] == s[i];
      } else {
        assert s[lead + |t|..][i - lead - |t|] == s[i];
      }
    }
  }

  /** Between the whitespace, accepted text is an optional sign and digit
      groups. */
  lemma TrimmedChars(s: string)
    requires ParseInt(s).Some?
    ensures var t := Text.TrimBoth(s, Text.IsIntSpace);
            forall j :: 0 <= j < |t| ==> IntChar(t[j])
  {
    var t := Text.TrimBoth(s, Text.IsIntSpace);
    if |t| > 0 && (t[0] == '+' || t[0] == '-') {
      assert IsDigitGroups(t[1..]);
      forall j | 1 <= j < |t| ensures IntChar(t[j]) {
        assert t[1..][j - 1] == t[j];
      }
    } else {
      assert IsDigitGroups(t);
    }
  }

  /** Text with any character other than whitespace, a sign, a digit or an
      underscore makes `int()` raise. */
  lemma ParseRejects(s: string, i: int)
    requires 0 <= i < |s| && !IntChar(s[i])
    ensures ParseInt(s) == None
  {
    ParseAccepts(s);
  }

  /** Neither digits nor a minus sign are whitespace. */
  lemma NotSpace(c: char)
    requires IsDigit(c) || c == '-'
    ensures !Text.IsIntSpace(c)
  {
  }

  /** A plain run of digits is a valid digit string with the same value. */
  lemma DigitsAreGroups(s: string)
    requires |s| > 0 && AllDigits(s)
    ensures IsDigitGroups(s) && GroupsValue(s) == DecimalValue(s)
  {
  }

  /** A plain run of ASCII digits reads as its decimal value. */
  lemma ParseDigits(s: string)
    requires |s| > 0 && AllDigits(s) && |s| <= MaxStrDigits
    ensures ParseInt(s) == Some(DecimalValue(s))
  {
    DigitsAreGroups(s);
    NotSpace(s[0]);
    NotSpace(s[|s| - 1]);
    Text.TrimBothUnchanged(s, Text.IsIntSpace);
    var t := Text.TrimBoth(s, Text.IsIntSpace);
    assert t == s && IsDigit(t[0]);
    assert !(t[0] == '+' || t[0] == '-');
  }

  /** A run of more than `MaxStrDigits` ASCII digits makes `int()` raise. */
  lemma TooManyDigits(s: string)
    requires AllDigits(s) && |s| > MaxStrDigits
    ensures ParseInt(s) == None
  {
    NotSpace(s[0]);
    NotSpace(s[|s| - 1]);
    Text.TrimBothUnchanged(s, Text.IsIntSpace);
    var t := Text.TrimBoth(s, Text.IsIntSpace);
    assert t == s && IsDigit(t[0]);
    assert !(t[0] == '+' || t[0] == '-');
  }

  /** Python's `str(n)` for a natural number. */
  function ShowNat(n: nat): (s: string)
    ensures |s| > 0 && AllDigits(s)
  {
    if n < 10 then [DigitChar(n)]
    else ShowNat(n / 10) + [DigitChar(n % 10)]
  }

  /** Python's `str(n)`. */
  function Show(n: int): (s: string)
    ensures |s| > 0
  {
    if n < 0 then "-" + ShowNat(-n) else ShowNat(n)
  }

  /** Reading back the digits of a natural number gives the number. */
  lemma {:induction false} ShowNatValue(n: nat)
    ensures DecimalValue(ShowNat(n)) == n
  {
    if n >= 10 {
      var s := ShowNat(n);
      ShowNatValue(n / 10);
      assert s[..|s| - 1] == ShowNat(n / 10);
    }
  }

  /** The magnitude of `n`. */
  function Abs(n: int): nat
  {
    if n < 0 then -n else n
  }

  /** `int(str(n)) == n` for every integer `n` of at most `MaxStrDigits`
      digits. */
  lemma ParseShow(n: int)
    requires |ShowNat(Abs(n))| <= MaxStrDigits
    ensures ParseInt(Show(n)) == Some(n)
  {
    var s := Show(n);
    var m := Abs(n);
    var ds := ShowNat(m);
    ShowNatValue(m);
    if n < 0 {
      NotSpace(s[0]);
      NotSpace(s[|s| - 1]);
      Text.TrimBothUnchanged(s, Text.IsIntSpace);
      assert s[1..] == ds;
      DigitsAreGroups(ds);
    } else {
      ParseDigits(s);
    }
  }

  /** `int(str(n))` raises for every integer `n` of more than
      `MaxStrDigits` digits. */
  lemma ShowTooLong(n: int)
    requires |ShowNat(Abs(n))| > MaxStrDigits
    ensures ParseInt(Show(n)) == None
  {
    var s := Show(n);
    var ds := ShowNat(Abs(n));
    if n < 0 {
      NotSpace(s[0]);
      NotSpace(s[|s| - 1]);
      Text.TrimBothUnchanged(s, Text.IsIntSpace);
      assert s[1..] == ds;
    } else {
      TooManyDigits(s);
    }
  }
}

=== FILE: ordering.dfy ===
/** The order in which a category's items are shown.

    Items are sorted by the integer before the first `.` of their folder
    name (`int(folder.split('.')[0])`) with Python's stable `list.sort`. When
    the category has a selection that matches an item's image path, that item
    is taken out, the others are sorted, and it is put in front. When the
    selection matches no item the list is shown as listed, unsorted.
 */
module Ordering {
  import opened Results
  import Text
  import Numbers
  import opened Catalog
  import opened StableSort

  /** `int(folder.split('.')[0])`, `None` where `int()` raises. */
  function FolderKey(folder: string): Option<int>
  {
    Numbers.ParseInt(Text.Split(folder, '.')[0])
  }

  /** A folder name made of a digit run, a dot and anything after it is
      keyed by the value of the digit run, as long as `int()` converts a
      run that long. */
  lemma FolderKeyOfDigits(digits: string, suffix: string)
    requires |digits| > 0 && Numbers.AllDigits(digits)
    requires |digits| <= Numbers.MaxStrDigits
    ensures FolderKey(digits + "." + suffix) == Some(Numbers.DecimalValue(digits))
  {
    DigitsPrefix(digits, suffix);
    Numbers.ParseDigits(digits);
  }

  /** A folder name whose digit run before the first dot is longer than
      `int()` converts has no key. */
  lemma FolderKeyTooLong(digits: string, suffix: string)
    requires Numbers.AllDigits(digits) && |digits| > Numbers.MaxStrDigits
    ensures FolderKey(digits + "." + suffix) == None
  {
    DigitsPrefix(digits, suffix);
    Numbers.TooManyDigits(digits);
  }

  /** A digit run is the part of `digits.suffix` before the first dot. */
  lemma DigitsPrefix(digits: string, suffix: string)
    requires Numbers.AllDigits(digits)
    ensures Text.Split(digits + "." + suffix, '.')[0] == digits
  {
    var folder := digits + "." + suffix;
    assert folder[|digits|] == '.';
    assert folder[..|digits|] == digits;
    assert '.' !in digits by {
      forall i | 0 <= i < |digits| ensures digits[i] != '.' {
        assert Numbers.IsDigit(digits[i]);
      }
    }
  }

  /** A sort key for folder names: `Some(k)` for key `k`, `None` where
      computing the key raises. */
  type KeyFn = string -> Option<int>

  /** `key` has a value for the folder of `it`. */
  predicate HasKey(key: KeyFn, it: Item)
  {
    key(it.folder).Some?
  }

  predicate AllKeyed(key: KeyFn, s: seq<Item>)
  {
    forall i :: 0 <= i < |s| ==> HasKey(key, s[i])
  }

  /** Every pair carries the key of its item. */
  predicate KeysMatch(key: KeyFn, ks: seq<Keyed<Item>>)
  {
    forall i :: 0 <= i < |ks| ==> key(ks[i].value.folder) == Some(ks[i].key)
  }

  /** The position of the first item without a key, `|items|` when every
      item has one. */
  function FirstUnkeyed(key: KeyFn, items: seq<Item>): (i: nat)
    ensures i <= |items|
    ensures forall j :: 0 <= j < i ==> HasKey(key, items[j])
    ensures i < |items| ==> !HasKey(key, items[i])
  {
    if |items| == 0 || !HasKey(key, items[0]) then 0
    else 1 + FirstUnkeyed(key, items[1..])
  }

  /** The first step of `list.sort(key=...)`: the key of every item, computed
      in list order. The first folder whose key cannot be computed stops the
      computation with that folder's error. */
  function Decorate(key: KeyFn, items: seq<Item>): (r: Result<seq<Keyed<Item>>>)
    ensures r.Ok? <==> AllKeyed(key, items)
    ensures r.Ok? ==> KeysMatch(key, r.value) && Values(r.value) == items
    ensures r.Err? ==> FirstUnkeyed(key, items) < |items|
                       && r.error == BadFolderPrefix(items[FirstUnkeyed(key, items)].folder)
  {
    if |items| == 0 then Ok([])
    else
      match key(items[0].folder)
      case None =>
        assert items[..0] == [];
        Err(BadFolderPrefix(items[0].folder))
      case Some(k) =>
        match Decorate(key, items[1..])
        case Ok(rest) =>
          var ks := [Keyed(k, items[0])] + rest;
          assert ks[1..] == rest;
          assert items == [items[0]] + items[1..];
          Ok(ks)
        case Err(e) =>
          assert items[1..][FirstUnkeyed(key, items[1..])] == items[FirstUnkeyed(key, items)];
          Err(e)
  }

  /** Pairs whose keys are their items' keys are what `Decorate` makes of
      their items. */
  lemma {:induction false} DecorateValues(key: KeyFn, ks: seq<Keyed<Item>>)
    requires KeysMatch(key, ks)
    ensures Decorate(key, Values(ks)) == Ok(ks)
  {
    if |ks| > 0 {
      var items := Values(ks);
      assert items[1..] == Values(ks[1..]);
      assert KeysMatch(key, ks[1..]);
      DecorateValues(key, ks[1..]);
      assert key(items[0].folder) == Some(ks[0].key);
      assert [Keyed(ks[0].key, items[0])] + ks[1..] == ks;
    }
  }

  /** `r` is what a stable sort by `key` makes of `s`: every key exists,
      the keys of `r` ascend, and items with equal keys appear in `r` in
      the same order as in `s`. */
  ghost predicate IsStableSortBy(key: KeyFn, r: seq<Item>, s: seq<Item>)
  {
    && Decorate(key, r).Ok? && Decorate(key, s).Ok?
    && StableSort.IsStableSortOf(Decorate(key, r).value, Decorate(key, s).value)
  }

  /** `images.sort(key=...)`: every key is computed first, in list order,
      and the first folder whose key cannot be computed aborts the request;
      otherwise the items are stably sorted by key. */
  function SortItems(key: KeyFn, items: seq<Item>): (r: Result<seq<Item>>)
    ensures r.Ok? <==> AllKeyed(key, items)
    ensures r.Ok? ==> IsStableSortBy(key, r.value, items) && multiset(r.value) == multiset(items)
    ensures r.Err? ==> FirstUnkeyed(key, items) < |items|
                       && r.error == BadFolderPrefix(items[FirstUnkeyed(key, items)].folder)
  {
    match Decorate(key, items)
    case Err(e) => Err(e)
    case Ok(ks) =>
      var sorted := StableSort.Sort(ks);
      StableSort.SortStable(ks);
      StableSort.SortValues(ks);
      assert KeysMatch(key, sorted) by {
        forall i | 0 <= i < |sorted|
          ensures key(sorted[i].value.folder) == Some(sorted[i].key)
        {
          assert sorted[i] in multiset(ks);
        }
      }
      DecorateValues(key, sorted);
      Ok(Values(sorted))
  }

  /** `next(item for item in images if item['image_path'] == path)`: the
      position of the first item with that image path. */
  function FindPath(items: seq<Item>, path: string): (r: Option<nat>)
    ensures r.Some? ==> r.value < |items| && items[r.value].imagePath == path
    ensures r.Some? ==> forall j :: 0 <= j < r.value ==> items[j].imagePath != path
    ensures r.None? ==> forall j :: 0 <= j < |items| ==> items[j].imagePath != path
  {
    if |items| == 0 then None
    else if items[0].imagePath == path then Some(0)
    else
      match FindPath(items[1..], path)
      case None => None
      case Some(i) => Some(i + 1)
  }

  /** The position of the first element of `s` equal to `x`. */
  function FirstIndex(s: seq<Item>, x: Item): (i: nat)
    requires x in s
    ensures i < |s| && s[i] == x
    ensures forall j :: 0 <= j < i ==> s[j] != x
  {
    if s[0] == x then 0 else 1 + FirstIndex(s[1..], x)
  }

  /** Python's `list.remove(x)`: the list without its first element equal to
      `x` (which must be present). */
  function RemoveFirst(s: seq<Item>, x: Item): (r: seq<Item>)
    requires x in s
    ensures r == s[..FirstIndex(s, x)] + s[FirstIndex(s, x) + 1..]
  {
    if s[0] == x then
      assert s[..0] + s[1..] == s[1..];
      s[1..]
    else
      assert x in s[1..];
      var r := RemoveFirst(s[1..], x);
      RemoveFirstStep(s, x, r);
      [s[0]] + r
  }

  /** One step of `RemoveFirst`: when the head is not `x`, it stays in
      front of what removing from the tail gives. */
  lemma RemoveFirstStep(s: seq<Item>, x: Item, r: seq<Item>)
    requires |s| > 0 && s[0] != x && x in s[1..]
    requires r == s[1..][..FirstIndex(s[1..], x)] + s[1..][FirstIndex(s[1..], x) + 1..]
    ensures x in s
    ensures [s[0]] + r == s[..FirstIndex(s, x)] + s[FirstIndex(s, x) + 1..]
  {
    var i := FirstIndex(s[1..], x);
    assert s[i + 1] == x;
    assert FirstIndex(s, x) == i + 1;
    ConsCut(s, i);
  }

  /** Cutting position `i` out of the tail and putting the head back is
      cutting position `i + 1` out of the whole. */
  lemma ConsCut(s: seq<Item>, i: nat)
    requires i + 1 < |s|
    ensures [s[0]] + (s[1..][..i] + s[1..][i + 1..]) == s[..i + 1] + s[i + 2..]
  {
  }

  /** Removing the first match of a path removes the item at its position:
      no earlier item can be equal to it, since none has its path. */
  lemma RemoveSelected(items: seq<Item>, i: nat)
    requires i < |items|
    requires forall j :: 0 <= j < i ==> items[j].imagePath != items[i].imagePath
    ensures RemoveFirst(items, items[i]) == items[..i] + items[i + 1..]
  {
    FirstIndexAt(items, i);
    var r := RemoveFirst(items, items[i]);
    assert r == items[..FirstIndex(items, items[i])] + items[FirstIndex(items, items[i]) + 1..];
  }

  /** An element with no equal element before it is found where it is. */
  lemma FirstIndexAt(s: seq<Item>, i: nat)
    requires i < |s|
    requires forall j :: 0 <= j < i ==> s[j].imagePath != s[i].imagePath
    ensures FirstIndex(s, s[i]) == i
  {
  }

  /** `category_view`'s ordering of the items of a category, given the
      category's selected image path (`''` when there is none) and the sort
      key. */
  function Arrange(key: KeyFn, items: seq<Item>, selected: string): Result<seq<Item>>
  {
    if selected != "" then
      match FindPath(items, selected)
      case None => Ok(items)
      case Some(i) =>
        RemoveSelected(items, i);
        var rest := RemoveFirst(items, items[i]);
        match SortItems(key, rest)
        case Ok(sorted) => Ok([items[i]] + sorted)
        case Err(e) => Err(e)
    else SortItems(key, items)
  }

  /** With no selection, the items are stably sorted by key; the request
      fails exactly when some key cannot be computed. */
  lemma ArrangeUnselected(key: KeyFn, items: seq<Item>)
    ensures var r := Arrange(key, items, "");
            && (r.Ok? <==> AllKeyed(key, items))
            && (r.Ok? ==> IsStableSortBy(key, r.value, items) && multiset(r.value) == multiset(items))
  {
  }

  /** A selection that matches no item leaves the items as listed, unsorted,
      even when their keys cannot be computed. */
  lemma ArrangeUnmatched(key: KeyFn, items: seq<Item>, selected: string)
    requires selected != ""
    requires forall j :: 0 <= j < |items| ==> items[j].imagePath != selected
    ensures Arrange(key, items, selected) == Ok(items)
  {
  }

  /** A selection that matches an item puts the first such item in front and
      stably sorts the others behind it; the result is a rearrangement of
      the items. Only the other items' keys need to exist. */
  lemma ArrangeSelected(key: KeyFn, items: seq<Item>, selected: string, i: nat)
    requires selected != ""
    requires i < |items| && items[i].imagePath == selected
    requires forall j :: 0 <= j < i ==> items[j].imagePath != selected
    ensures var r := Arrange(key, items, selected);
            var others := items[..i] + items[i + 1..];
            && (r.Ok? <==> AllKeyed(key, others))
            && (r.Ok? ==> && |r.value| == |items|
                          && r.value[0] == items[i]
                          && IsStableSortBy(key, r.value[1..], others)
                          && multiset(r.value) == multiset(items))
  {
    var others := items[..i] + items[i + 1..];
    assert items == items[..i] + [items[i]] + items[i + 1..];
    assert multiset(items) == multiset(others) + multiset{items[i]};
    assert FindPath(items, selected) == Some(i);
    RemoveSelected(items, i);
    var sorted := SortItems(key, others);
    assert Arrange(key, items, selected)
        == if sorted.Ok? then Ok([items[i]] + sorted.value) else Err(sorted.error);
  }

  /** Two items whose keys are out of order are swapped by the sort. */
  lemma SortItemsSwapsTwo(key: KeyFn, x: Item, y: Item, kx: int, ky: int)
    requires key(x.folder) == Some(kx) && key(y.folder) == Some(ky) && ky < kx
    ensures SortItems(key, [x, y]) == Ok([y, x])
  {
    var a, b := Keyed(kx, x), Keyed(ky, y);
    assert KeysMatch(key, [a, b]);
    DecorateValues(key, [a, b]);
    ValuesOfTwo(a, b);
    ValuesOfTwo(b, a);
    StableSort.SortSwapsTwo(a, b);
    SortItemsOf(key, [x, y], [a, b]);
  }

  /** The values of two pairs. */
  lemma ValuesOfTwo(a: Keyed<Item>, b: Keyed<Item>)
    ensures Values([a, b]) == [a.value, b.value]
  {
  }

  /** Once the keys are computed, `SortItems` is the stable sort of the
      pairs. */
  lemma SortItemsOf(key: KeyFn, items: seq<Item>, ks: seq<Keyed<Item>>)
    requires Decorate(key, items) == Ok(ks)
    ensures SortItems(key, items) == Ok(Values(StableSort.Sort(ks)))
  {
  }

  /** The result of `Arrange` when the selection is found at `i` and the
      other items sort without error. */
  lemma ArrangeSelectedShape(key: KeyFn, items: seq<Item>, selected: string, i: nat, sorted: seq<Item>)
    requires selected != "" && FindPath(items, selected) == Some(i)
    requires SortItems(key, items[..i] + items[i + 1..]) == Ok(sorted)
    ensures Arrange(key, items, selected) == Ok([items[i]] + sorted)
  {
    RemoveSelected(items, i);
  }

  /** The second of three items is found by its path when the first has a
      different path. */
  lemma FindsSecond(a: Item, b: Item, c: Item)
    requires a.imagePath != b.imagePath
    ensures FindPath([a, b, c], b.imagePath) == Some(1)
    ensures [a, b, c][..1] + [a, b, c][2..] == [a, c]
  {
    assert [a, b, c][1..] == [b, c];
  }

  /** Three items keyed 1, 2 and 3 (folders such as `1.foo`, `2.bar` and
      `3.baz`, see `FolderKeyOfDigits`), listed in reverse, with the middle
      one selected, are shown selected first and then in key order. The key
      of the selected item plays no part. */
  lemma SelectedComesFirstExample(key: KeyFn, foo: Item, bar: Item, baz: Item)
    requires key(foo.folder) == Some(1) && key(baz.folder) == Some(3)
    requires bar.imagePath != "" && baz.imagePath != bar.imagePath
    ensures Arrange(key, [baz, bar, foo], bar.imagePath) == Ok([bar, foo, baz])
  {
    FindsSecond(baz, bar, foo);
    SortItemsSwapsTwo(key, baz, foo, 3, 1);
    ArrangeSelectedShape(key, [baz, bar, foo], bar.imagePath, 1, [foo, baz]);
    ConsPair(bar, foo, baz);
  }

  /** Example: the folders `3.baz`, `2.bar` and `1.foo` of `category`,
      listed in that order, with `2.bar` selected, are shown as `2.bar`,
      `1.foo`, `3.baz`. */
  lemma FolderOrderExample(category: string, foo: string, bar: string, baz: string)
    requires foo == "1.foo" && bar == "2.bar" && baz == "3.baz"
    ensures var items := [ItemFor(category, baz), ItemFor(category, bar), ItemFor(category, foo)];
            Arrange(FolderKey, items, ImagePath(category, bar))
              == Ok([ItemFor(category, bar), ItemFor(category, foo), ItemFor(category, baz)])
  {
    DigitFolderKey(foo, '1', "foo");
    DigitFolderKey(baz, '3', "baz");
    ImagePathsDiffer(category, baz, bar);
    SelectedComesFirstExample(FolderKey, ItemFor(category, foo), ItemFor(category, bar),
                              ItemFor(category, baz));
  }

  /** A folder named by one digit, a dot and a word is keyed by that
      digit's value. */
  lemma DigitFolderKey(folder: string, c: char, word: string)
    requires Numbers.IsDigit(c) && folder == [c] + "." + word
    ensures FolderKey(folder) == Some(Numbers.DigitValue(c))
  {
    var ds := [c];
    assert ds[..0] == [] && Numbers.DecimalValue(ds) == Numbers.DigitValue(c);
    FolderKeyOfDigits(ds, word);
  }

  /** Items whose folder names start differently have different image
      paths. */
  lemma ImagePathsDiffer(category: string, f: string, g: string)
    requires |f| > 0 && |g| > 0 && f[0] != g[0]
    ensures ImagePath(category, f) != ImagePath(category, g)
  {
    assert ImagePath(category, f)[|category| + 1] == f[0];
    assert ImagePath(category, g)[|category| + 1] == g[0];
  }

  /** `[a] + [b, c]` is `[a, b, c]`. */
  lemma ConsPair(a: Item, b: Item, c: Item)
    ensures [a] + [b, c] == [a, b, c]
  {
  }
}

=== FILE: pagination.dfy ===
/** Paging of the category list, shared by the index page and by the page
    shown again after an export.

    The page number comes from the `page` query parameter when it is present
    and `int()` accepts it, otherwise from the page remembered in the user's
    session, otherwise 1. It is clamped into `1..total_pages`, remembered in
    the session again, and selects a window of at most ten categories.
 */
module Pagination {
  import opened Results
  import Numbers

  /** Categories shown per page. */
  const PerPage: nat := 10

  function Min(a: int, b: int): int
  {
    if a <= b then a else b
  }

  function Max(a: int, b: int): int
  {
    if a >= b then a else b
  }

  /** `(total + per_page - 1) // per_page`: the number of pages needed to
      hold `total` categories, that is, `total / per_page` rounded up. */
  function TotalPages(total: nat): (n: nat)
    ensures n * PerPage >= total
    ensures n > 0 ==> (n - 1) * PerPage < total
    ensures n == 0 <==> total == 0
  {
    (total + PerPage - 1) / PerPage
  }

  /** `max(1, min(page, total_pages))`: a page inside `1..totalPages`, or 1
      when there are no pages at all. */
  function Clamp(page: int, totalPages: nat): (p: int)
    ensures p >= 1
    ensures totalPages > 0 ==> p <= totalPages
    ensures 1 <= page <= totalPages ==> p == page
    ensures page > totalPages > 0 ==> p == totalPages
    ensures page < 1 || totalPages == 0 ==> p == 1
  {
    Max(1, Min(page, totalPages))
  }

  /** `request.args.get('page', type=int)`: the query value when the
      parameter is present and `int()` accepts it, else nothing. */
  function QueryPage(raw: Option<string>): (q: Option<int>)
    ensures raw.None? ==> q.None?
  {
    match raw
    case None => None
    case Some(text) => Numbers.ParseInt(text)
  }

  /** A page number written in decimal, sign included, reads back as that
      number, up to the digit limit of `int()`. */
  lemma QueryPageShow(n: int)
    requires |Numbers.ShowNat(Numbers.Abs(n))| <= Numbers.MaxStrDigits
    ensures QueryPage(Some(Numbers.Show(n))) == Some(n)
  {
    Numbers.ParseShow(n);
  }

  /** A `page` value holding a character `int()` never accepts counts as
      no `page` parameter at all: the session's last page is shown. */
  lemma QueryPageRejects(categories: seq<string>, text: string, i: int, lastPage: Option<int>)
    requires 0 <= i < |text| && !Numbers.IntChar(text[i])
    ensures QueryPage(Some(text)) == None
    ensures Paginate(categories, QueryPage(Some(text)), lastPage) == Paginate(categories, None, lastPage)
  {
    Numbers.ParseRejects(text, i);
  }

  /** The page asked for: the query's, else the session's last page
      (`session.get('last_page', 1)`). */
  function RequestedPage(query: Option<int>, lastPage: Option<int>): (p: int)
    ensures query.Some? ==> p == query.value
    ensures query.None? && lastPage.Some? ==> p == lastPage.value
    ensures query.None? && lastPage.None? ==> p == 1
  {
    match query
    case Some(q) => q
    case None =>
      match lastPage
      case Some(l) => l
      case None => 1
  }

  /** Python's `s[start:end]` for non-negative bounds: bounds past the end
      are cut back to the length, and a start past the end gives nothing. */
  function PySlice<T>(s: seq<T>, start: nat, end: nat): (r: seq<T>)
    ensures start <= end <= |s| ==> r == s[start..end]
    ensures end <= start || |s| <= start ==> r == []
    ensures start <= |s| <= end ==> r == s[start..]
  {
    var lo := Min(start, |s|);
    var hi := Min(end, |s|);
    if lo <= hi then s[lo..hi] else []
  }

  /** What the category list page shows. */
  datatype PageView = PageView(
    categories: seq<string>,
    page: int,
    total: nat,
    totalPages: nat)

  /** The page view for the sorted `categories`, given the parsed query
      parameter and the session's last page. The view's `page` is also the
      value stored back into the session. */
  function Paginate(categories: seq<string>, query: Option<int>, lastPage: Option<int>): (v: PageView)
    ensures v.total == |categories| && v.totalPages == TotalPages(|categories|)
    ensures v.page >= 1
    ensures |categories| > 0 ==> v.page <= v.totalPages
    ensures |categories| == 0 ==> v.page == 1 && v.categories == []
    ensures (v.page - 1) * PerPage <= |categories|
    ensures v.categories == categories[(v.page - 1) * PerPage .. Min(v.page * PerPage, |categories|)]
    ensures |v.categories| <= PerPage
    ensures |categories| > 0 ==> |v.categories| > 0
    ensures var p := RequestedPage(query, lastPage);
              1 <= p <= TotalPages(|categories|) ==> v.page == p
    ensures v.page == Clamp(RequestedPage(query, lastPage), TotalPages(|categories|))
  {
    var total := |categories|;
    var totalPages := TotalPages(total);
    var page := Clamp(RequestedPage(query, lastPage), totalPages);
    var start := (page - 1) * PerPage;
    var end := start + PerPage;
    PageView(PySlice(categories, start, end), page, total, totalPages)
  }

  /** The window of a page, as `Paginate` would show it when asked for that
      page directly. */
  function Window(categories: seq<string>, page: int): seq<string>
  {
    Paginate(categories, Some(page), None).categories
  }

  /** Visiting again without a `page` parameter shows the same page: the
      page stored in the session is a fixed point of the clamp. */
  lemma RevisitSamePage(categories: seq<string>, query: Option<int>, lastPage: Option<int>)
    ensures var v := Paginate(categories, query, lastPage);
            Paginate(categories, None, Some(v.page)) == v
  {
  }

  /** Category `i` of the list is entry `i % 10` of page `i / 10 + 1`. */
  lemma PageOfIndex(categories: seq<string>, i: nat)
    requires i < |categories|
    ensures var v := Paginate(categories, Some(i / PerPage + 1), None);
            v.page == i / PerPage + 1 && i % PerPage < |v.categories|
            && v.categories[i % PerPage] == categories[i]
  {
    var p := i / PerPage + 1;
    assert (p - 1) * PerPage <= i < p * PerPage;
    assert p <= TotalPages(|categories|);
  }

  /** The windows of pages `1..n`, one after another. */
  function FirstPages(categories: seq<string>, n: nat): seq<string>
  {
    if n == 0 then [] else FirstPages(categories, n - 1) + Window(categories, n)
  }

  /** Pages `1..n` together hold exactly the first `n * 10` categories. */
  lemma {:induction false} FirstPagesPrefix(categories: seq<string>, n: nat)
    requires n <= TotalPages(|categories|)
    ensures FirstPages(categories, n) == categories[..Min(n * PerPage, |categories|)]
  {
    if n > 0 {
      FirstPagesPrefix(categories, n - 1);
      WindowAt(categories, n);
      PrefixThenSlice(categories, (n - 1) * PerPage, Min(n * PerPage, |categories|));
    }
  }

  /** Page `n` of the existing pages is the slice from `(n - 1) * 10` to
      `n * 10`, cut back to the length. */
  lemma WindowAt(categories: seq<string>, n: nat)
    requires 0 < n <= TotalPages(|categories|)
    ensures (n - 1) * PerPage < |categories|
    ensures Min((n - 1) * PerPage, |categories|) == (n - 1) * PerPage
    ensures Window(categories, n) == categories[(n - 1) * PerPage .. Min(n * PerPage, |categories|)]
  {
  }

  /** A prefix followed by the slice after it is a longer prefix. */
  lemma PrefixThenSlice(s: seq<string>, lo: nat, hi: nat)
    requires lo <= hi <= |s|
    ensures s[..lo] + s[lo..hi] == s[..hi]
  {
  }

  /** All pages together list every category once, in order: no category
      is skipped or shown twice by paging. */
  lemma PagesPartition(categories: seq<string>)
    ensures FirstPages(categories, TotalPages(|categories|)) == categories
  {
    FirstPagesPrefix(categories, TotalPages(|categories|));
  }

  /** With 25 categories, page 1 shows entries 0..9, page 3 shows entries
      20..24, and page 4 is out of range and shows page 3 again. */
  lemma TwentyFiveCategories(categories: seq<string>)
    requires |categories| == 25
    ensures Paginate(categories, Some(1), None).categories == categories[0..10]
    ensures Paginate(categories, Some(3), None).categories == categories[20..25]
    ensures Paginate(categories, Some(4), None).page == 3
    ensures Paginate(categories, Some(4), None).categories == categories[20..25]
    ensures Paginate(categories, None, None).page == 1
  {
  }
}

=== FILE: results.dfy ===
/** Optional values and the request-level failures of the application.

    The web handlers do not catch anything: a failure aborts the request with a
    server error. The model returns these failures as values instead.
 */
module Results {

  /** A value that may be absent (Python's `None`). */
  datatype Option<+T> = None | Some(value: T)

  /** The failures a request can end in. */
  datatype Error =
      /** `int()` rejected the part of an item folder name before its first `.` */
    | BadFolderPrefix(folder: string)
      /** the image path has fewer path segments or dot segments than the
          search-result token needs (an `IndexError` in the source) */
    | MissingTokenSegment(imagePath: string)
      /** the text file next to a selected image cannot be opened */
    | MissingSidecar(path: string)

  /** The outcome of a request step that can fail. */
  datatype Result<+T> = Ok(value: T) | Err(error: Error)

  /** The position of the first failure among `rs`, or `|rs|` when all
      succeed. */
  function FirstErr<T>(rs: seq<Result<T>>): (i: nat)
    ensures i <= |rs|
    ensures forall j :: 0 <= j < i ==> rs[j].Ok?
    ensures i < |rs| ==> rs[i].Err?
  {
    if |rs| == 0 || rs[0].Err? then 0
    else
      var i := FirstErr(rs[1..]);
      assert forall j :: 0 < j < |rs| ==> rs[j] == rs[1..][j - 1];
      1 + i
  }

  /** The values of a sequence of outcomes, or the failure of the first one
      that failed: what a loop that stops at its first exception produces. */
  function Collect<T>(rs: seq<Result<T>>): (r: Result<seq<T>>)
    ensures r.Ok? <==> forall i :: 0 <= i < |rs| ==> rs[i].Ok?
    ensures r.Ok? ==> |r.value| == |rs| && forall i :: 0 <= i < |rs| ==> rs[i] == Ok(r.value[i])
    ensures r.Err? ==> FirstErr(rs) < |rs| && r.error == rs[FirstErr(rs)].error
  {
    if |rs| == 0 then Ok([])
    else
      match rs[0]
      case Err(e) => Err(e)
      case Ok(v) =>
        match Collect(rs[1..])
        case Err(e) =>
          assert forall j :: 0 < j < |rs| ==> rs[j] == rs[1..][j - 1];
          Err(e)
        case Ok(vs) =>
          assert forall j :: 0 < j < |rs| ==> rs[j] == rs[1..][j - 1];
          Ok([v] + vs)
  }

  /** A single success collects to its value. */
  lemma CollectOne<T>(x: Result<T>)
    requires x.Ok?
    ensures Collect([x]) == Ok([x.value])
  {
    assert [x][1..] == [];
    assert Collect([x][1..]) == Ok([]);
    assert [x.value] + [] == [x.value];
  }

  /** Collecting two runs one after the other: both must succeed, and the
      values are those of the first run followed by those of the second. */
  lemma {:induction false} CollectAppend<T>(a: seq<Result<T>>, b: seq<Result<T>>)
    ensures Collect(a + b).Ok? <==> Collect(a).Ok? && Collect(b).Ok?
    ensures Collect(a + b).Ok? ==> Collect(a + b).value == Collect(a).value + Collect(b).value
  {
    if |a| > 0 {
      assert (a + b)[0] == a[0];
      assert (a + b)[1..] == a[1..] + b;
      CollectAppend(a[1..], b);
    } else {
      assert a + b == b;
    }
  }

  /** Outcomes that are the successes with values `vs` collect to `vs`. */
  lemma CollectOf<T>(rs: seq<Result<T>>, vs: seq<T>)
    requires |rs| == |vs| && forall j :: 0 <= j < |rs| ==> rs[j] == Ok(vs[j])
    ensures Collect(rs) == Ok(vs)
  {
    var r := Collect(rs);
    assert r.Ok?;
    assert forall j :: 0 <= j < |rs| ==> r.value[j] == vs[j];
    assert r.value == vs;
  }

  /** Replacing one success by another replaces its value. */
  lemma CollectUpdate<T>(o: seq<Result<T>>, i: nat, v: T)
    requires Collect(o).Ok? && i < |o|
    ensures Collect(o[i := Ok(v)]) == Ok(Collect(o).value[i := v])
  {
    var vs := Collect(o).value;
    CollectOf(o[i := Ok(v)], vs[i := v]);
  }

  /** Leaving out one success leaves out its value. */
  lemma CollectRemoveAt<T>(o: seq<Result<T>>, i: nat)
    requires Collect(o).Ok? && i < |o|
    ensures var vs := Collect(o).value;
            Collect(o[..i] + o[i + 1..]) == Ok(vs[..i] + vs[i + 1..])
  {
    var vs := Collect(o).value;
    var rest := o[..i] + o[i + 1..];
    var ws := vs[..i] + vs[i + 1..];
    forall j | 0 <= j < |rest| ensures rest[j] == Ok(ws[j]) {
      if j < i {
        assert rest[j] == o[j] && ws[j] == vs[j];
      } else {
        assert rest[j] == o[j + 1] && ws[j] == vs[j + 1];
      }
    }
    CollectOf(rest, ws);
  }
}

=== FILE: selections.dfy ===
/** The saved selections: for each category, the image path chosen for it.

    The application keeps them as a JSON object in `selections.json`, loaded
    into a Python `dict` and saved back whole. A `dict` remembers the order
    in which its keys were first inserted, and JSON loading and saving keep
    that order, so the selections are modelled as the images by category
    together with the order of the categories.
 */
module Selections {

  /** The images chosen, by category, and the categories in insertion
      order. */
  datatype Selections = Selections(order: seq<string>, images: map<string, string>)

  /** No category twice. */
  predicate Distinct(ks: seq<string>)
  {
    forall i, j :: 0 <= i < j < |ks| ==> ks[i] != ks[j]
  }

  /** The order lists each chosen category exactly once, as the keys of a
      `dict` do. */
  predicate Valid(s: Selections)
  {
    && Distinct(s.order)
    && (forall k :: k in s.images ==> k in s.order)
    && (forall k :: k in s.order ==> k in s.images)
  }

  /** No selections: `get_selections()` without a `selections.json`. */
  function Empty(): (s: Selections)
    ensures Valid(s)
    ensures forall k :: k !in s.images
  {
    Selections([], map[])
  }

  /** `selections.get(category, default)`. */
  function Get(s: Selections, c: string, default: string): (v: string)
    ensures c !in s.images ==> v == default
    ensures c in s.images ==> v == s.images[c]
  {
    if c in s.images then s.images[c] else default
  }

  /** `selections[category] = image_path`: a category already chosen gets
      the new image in the same position; a new category is added at the
      end. */
  function Select(s: Selections, c: string, p: string): (r: Selections)
    requires Valid(s)
    ensures Valid(r)
    ensures r.images == s.images[c := p]
    ensures c in s.images ==> r.order == s.order
    ensures c !in s.images ==> r.order == s.order + [c]
  {
    if c in s.images then
      Selections(s.order, s.images[c := p])
    else
      Selections(s.order + [c], s.images[c := p])
  }

  /** `ks` without `c`, the others in order. */
  function Remove(ks: seq<string>, c: string): (r: seq<string>)
    ensures forall x :: x in r <==> x in ks && x != c
    ensures Distinct(ks) ==> Distinct(r)
    ensures c !in ks ==> r == ks
  {
    if |ks| == 0 then []
    else
      var rest := Remove(ks[1..], c);
      assert forall x :: x in ks <==> x == ks[0] || x in ks[1..];
      assert Distinct(ks) ==> ks[0] !in ks[1..];
      if ks[0] == c then rest
      else
        assert ks == [ks[0]] + ks[1..];
        [ks[0]] + rest
  }

  /** Removing a category that stands at position `i` of a sequence with no
      repeats is deleting position `i`. */
  lemma {:induction false} RemoveAt(ks: seq<string>, i: nat)
    requires Distinct(ks) && i < |ks|
    ensures Remove(ks, ks[i]) == ks[..i] + ks[i + 1..]
  {
    if i == 0 {
      assert ks[0] !in ks[1..];
    } else {
      var tail := ks[1..];
      assert tail[i - 1] == ks[i] && ks[0] != ks[i];
      RemoveKeep(ks, ks[i]);
      RemoveAt(tail, i - 1);
      CutInTail(ks, i);
    }
  }

  /** Removing a key other than the first keeps the first. */
  lemma RemoveKeep(ks: seq<string>, c: string)
    requires |ks| > 0 && ks[0] != c
    ensures Remove(ks, c) == [ks[0]] + Remove(ks[1..], c)
  {
  }

  /** Cutting position `i > 0` out of `ks` is cutting `i - 1` out of its
      tail. */
  lemma CutInTail(ks: seq<string>, i: nat)
    requires 0 < i < |ks|
    ensures ks[..i] + ks[i + 1..] == [ks[0]] + (ks[1..][..i - 1] + ks[1..][i..])
  {
  }

  /** The unselect handler's change: the selections without `c`, and
      whether they changed and so are saved. A category without a choice
      leaves them as they are and nothing is saved. */
  function Unselect(s: Selections, c: string): (r: (Selections, bool))
    requires Valid(s)
    ensures Valid(r.0)
    ensures r.1 <==> c in s.images
    ensures r.0.images == s.images - {c}
    ensures r.0.order == Remove(s.order, c)
    ensures !r.1 ==> r.0 == s
  {
    if c in s.images then
      (Selections(Remove(s.order, c), s.images - {c}), true)
    else
      (s, false)
  }

  /** After choosing `p` for `c`, `c` reads back as `p`, and every other
      category reads as before. */
  lemma GetSelect(s: Selections, c: string, p: string, d: string, default: string)
    requires Valid(s)
    ensures Get(Select(s, c, p), c, default) == p
    ensures d != c ==> Get(Select(s, c, p), d, default) == Get(s, d, default)
  {
  }

  /** After unselecting `c` it reads as the default, and every other
      category reads as before. */
  lemma GetUnselect(s: Selections, c: string, d: string, default: string)
    requires Valid(s)
    ensures Get(Unselect(s, c).0, c, default) == default
    ensures d != c ==> Get(Unselect(s, c).0, d, default) == Get(s, d, default)
  {
  }

  /** A second choice for a category replaces the first in place; choosing
      the same image twice is the same as choosing it once. */
  lemma SelectOverwrites(s: Selections, c: string, p: string, q: string)
    requires Valid(s)
    ensures Select(Select(s, c, p), c, q) == Select(s, c, q)
  {
    assert s.images[c := p][c := q] == s.images[c := q];
  }

  /** Choices for different categories can be made in either order as far
      as the images go; only the order of new categories differs. */
  lemma SelectCommutesImages(s: Selections, c: string, p: string, d: string, q: string)
    requires Valid(s) && c != d
    ensures Select(Select(s, c, p), d, q).images == Select(Select(s, d, q), c, p).images
  {
    assert s.images[c := p][d := q] == s.images[d := q][c := p];
  }

  /** Unselecting twice is the same as unselecting once, and the second time
      saves nothing. */
  lemma UnselectIdempotent(s: Selections, c: string)
    requires Valid(s)
    ensures var once := Unselect(s, c).0;
            Unselect(once, c) == (once, false)
  {
  }

  /** Unselecting a category keeps the other categories in their order: the
      one at position `i` is cut out. */
  lemma UnselectRemovesAt(s: Selections, i: nat)
    requires Valid(s) && i < |s.order|
    ensures Unselect(s, s.order[i]).0.order == s.order[..i] + s.order[i + 1..]
  {
    RemoveAt(s.order, i);
  }

  /** Unselecting right after choosing gives what unselecting alone gives:
      the choice leaves no trace, not even in the order. */
  lemma UnselectAfterSelect(s: Selections, c: string, p: string)
    requires Valid(s)
    ensures Unselect(Select(s, c, p), c).0 == Unselect(s, c).0
  {
    UpdateThenRemove(s.images, c, p);
    if c !in s.images {
      RemoveAppended(s.order, c);
    }
  }

  /** Removing a key just set removes the setting too. */
  lemma UpdateThenRemove(m: map<string, string>, c: string, p: string)
    ensures m[c := p] - {c} == m - {c}
  {
  }

  /** Removing a category just appended gives back the categories before
      it. */
  lemma RemoveAppended(ks: seq<string>, c: string)
    requires Distinct(ks) && c !in ks
    ensures Remove(ks + [c], c) == ks
  {
    var t := ks + [c];
    assert Distinct(t);
    RemoveAt(t, |ks|);
    assert t[..|ks|] == ks;
  }

  /** Selecting a category that was not chosen and then unselecting it
      restores the selections exactly. */
  lemma SelectUnselectRoundTrip(s: Selections, c: string, p: string)
    requires Valid(s) && c !in s.images
    ensures Unselect(Select(s, c, p), c) == (s, true)
  {
    UnselectAfterSelect(s, c, p);
  }
}

=== FILE: stablesort.dfy ===
/** A stable sort of values by precomputed integer keys.

    Python's `list.sort(key=f)` first computes `f(x)` for every element and
    then sorts the elements by those keys, keeping elements with equal keys
    in their original order. Here the computed keys travel with their values
    as `Keyed` pairs, and the sort is an insertion sort proved stable. It
    has the shape of the string sort in `Lexicographic`, but orders by key
    instead of by code point and keeps equal keys in input order, which the
    string sort need not state since equal strings cannot be told apart.
 */
module StableSort {

  /** A value together with its sort key. */
  datatype Keyed<T> = Keyed(key: int, value: T)

  /** The values of a keyed sequence, keys dropped. */
  function Values<T>(s: seq<Keyed<T>>): (vs: seq<T>)
    ensures |vs| == |s|
    ensures forall i :: 0 <= i < |s| ==> vs[i] == s[i].value
  {
    if |s| == 0 then [] else [s[0].value] + Values(s[1..])
  }

  /** Ascending by key. */
  predicate Sorted<T>(s: seq<Keyed<T>>)
  {
    forall i, j :: 0 <= i < j < |s| ==> s[i].key <= s[j].key
  }

  /** The elements of `s` with key `k`, in the order of `s`. */
  function WithKey<T>(s: seq<Keyed<T>>, k: int): (r: seq<Keyed<T>>)
    ensures |r| <= |s|
  {
    if |s| == 0 then []
    else (if s[0].key == k then [s[0]] else []) + WithKey(s[1..], k)
  }

  /** `r` is what a stable sort makes of `s`: ascending by key, and each
      group of equal keys in the same order as in `s`. */
  ghost predicate IsStableSortOf<T>(r: seq<Keyed<T>>, s: seq<Keyed<T>>)
  {
    Sorted(r) && forall k :: WithKey(r, k) == WithKey(s, k)
  }

  /** `x` placed before the first element of `s` whose key is not smaller,
      so after every element with a smaller key and before every element
      with the same key. */
  function Insert<T>(x: Keyed<T>, s: seq<Keyed<T>>): (r: seq<Keyed<T>>)
    requires Sorted(s)
    ensures Sorted(r)
    ensures multiset(r) == multiset(s) + multiset{x}
  {
    if |s| == 0 then [x]
    else if x.key <= s[0].key then [x] + s
    else
      var rest := Insert(x, s[1..]);
      LowerBound(s[0].key, x, s[1..], rest);
      SortedCons(s[0], rest);
      assert s == [s[0]] + s[1..];
      [s[0]] + rest
  }

  /** An element no greater than every element of an ascending sequence
      can go in front of it. */
  lemma SortedCons<T>(h: Keyed<T>, s: seq<Keyed<T>>)
    requires Sorted(s) && forall j :: 0 <= j < |s| ==> h.key <= s[j].key
    ensures Sorted([h] + s)
  {
  }

  /** A key no greater than `x`'s and every key of `s` is no greater than
      any key of a rearrangement of `s` with `x` added. */
  lemma LowerBound<T>(k: int, x: Keyed<T>, s: seq<Keyed<T>>, rest: seq<Keyed<T>>)
    requires k <= x.key && forall j :: 0 <= j < |s| ==> k <= s[j].key
    requires multiset(rest) == multiset(s) + multiset{x}
    ensures forall j :: 0 <= j < |rest| ==> k <= rest[j].key
  {
    forall j | 0 <= j < |rest| ensures k <= rest[j].key {
      assert rest[j] in multiset(rest);
      if rest[j] != x {
        assert rest[j] in multiset(s);
        var m :| 0 <= m < |s| && s[m] == rest[j];
      }
    }
  }

  /** Inserting `x` adds it in front of its own group and leaves the other
      groups alone. */
  lemma {:induction false} InsertGroups<T>(x: Keyed<T>, s: seq<Keyed<T>>, k: int)
    requires Sorted(s)
    ensures WithKey(Insert(x, s), k) == (if k == x.key then [x] else []) + WithKey(s, k)
  {
    if |s| == 0 {
      assert Insert(x, s) == [x] + s;
      WithKeyConsOf(x, s, k);
    } else if x.key <= s[0].key {
      assert Insert(x, s) == [x] + s;
      WithKeyConsOf(x, s, k);
    } else {
      var rest := Insert(x, s[1..]);
      assert Insert(x, s) == [s[0]] + rest;
      InsertGroups(x, s[1..], k);
      WithKeyConsOf(s[0], rest, k);
      assert s == [s[0]] + s[1..];
      WithKeyConsOf(s[0], s[1..], k);
      SwapFronts(if s[0].key == k then [s[0]] else [], if k == x.key then [x] else [], WithKey(s[1..], k));
    }
  }

  /** The group of a sequence with an element in front. */
  lemma WithKeyConsOf<T>(h: Keyed<T>, t: seq<Keyed<T>>, k: int)
    ensures WithKey([h] + t, k) == (if h.key == k then [h] else []) + WithKey(t, k)
  {
    assert ([h] + t)[0] == h && ([h] + t)[1..] == t;
  }

  /** At most one of two front pieces is non-empty, so they can be put in
      either order. */
  lemma SwapFronts<T>(p: seq<T>, q: seq<T>, t: seq<T>)
    requires p == [] || q == []
    ensures p + (q + t) == q + (p + t)
  {
    if p == [] {
      assert p + (q + t) == q + t;
    } else {
      assert q + (p + t) == p + t;
    }
  }

  /** Inserting `x` adds its value to the values. */
  lemma {:induction false} InsertValues<T>(x: Keyed<T>, s: seq<Keyed<T>>)
    requires Sorted(s)
    ensures multiset(Values(Insert(x, s))) == multiset(Values(s)) + multiset{x.value}
  {
    if |s| > 0 {
      InsertShape(x, s);
      if x.key <= s[0].key {
        MultisetValuesCons(x, s);
      } else {
        InsertValues(x, s[1..]);
        HeadTail(s);
        ConsValues(s[0], s[1..], Insert(x, s[1..]), x.value);
      }
    }
  }

  /** `Insert` on a non-empty sequence, one step unfolded. */
  lemma InsertShape<T>(x: Keyed<T>, s: seq<Keyed<T>>)
    requires Sorted(s) && |s| > 0
    ensures x.key <= s[0].key ==> Insert(x, s) == [x] + s
    ensures s[0].key < x.key ==> Insert(x, s) == [s[0]] + Insert(x, s[1..])
  {
  }

  /** A non-empty sequence is its head followed by its tail. */
  lemma HeadTail<T>(s: seq<T>)
    requires |s| > 0
    ensures [s[0]] + s[1..] == s
  {
  }

  /** The values of a sequence with an element in front, as a multiset. */
  lemma MultisetValuesCons<T>(h: Keyed<T>, t: seq<Keyed<T>>)
    ensures multiset(Values([h] + t)) == multiset(Values(t)) + multiset{h.value}
  {
    ValuesCons(h, t);
    assert multiset([h.value] + Values(t)) == multiset{h.value} + multiset(Values(t));
  }

  /** Putting the same element in front of two sequences keeps the
      difference between their values. */
  lemma ConsValues<T>(h: Keyed<T>, t: seq<Keyed<T>>, u: seq<Keyed<T>>, y: T)
    requires multiset(Values(u)) == multiset(Values(t)) + multiset{y}
    ensures multiset(Values([h] + u)) == multiset(Values([h] + t)) + multiset{y}
  {
    ValuesCons(h, t);
    ValuesCons(h, u);
    assert multiset([h.value] + Values(u)) == multiset{h.value} + multiset(Values(u));
    assert multiset([h.value] + Values(t)) == multiset{h.value} + multiset(Values(t));
  }

  /** The values of a sequence with an element in front. */
  lemma ValuesCons<T>(h: Keyed<T>, t: seq<Keyed<T>>)
    ensures Values([h] + t) == [h.value] + Values(t)
  {
    assert ([h] + t)[1..] == t;
  }

  /** Insertion sort: sort the tail, then insert the head. */
  function Sort<T>(s: seq<Keyed<T>>): (r: seq<Keyed<T>>)
    ensures Sorted(r)
    ensures multiset(r) == multiset(s)
  {
    if |s| == 0 then []
    else
      assert s == [s[0]] + s[1..];
      Insert(s[0], Sort(s[1..]))
  }

  /** The sort is stable. */
  lemma {:induction false} SortStable<T>(s: seq<Keyed<T>>)
    ensures IsStableSortOf(Sort(s), s)
  {
    if |s| > 0 {
      SortStable(s[1..]);
      forall k
        ensures WithKey(Sort(s), k) == WithKey(s, k)
      {
        InsertGroups(s[0], Sort(s[1..]), k);
        WithKeyCons(s, k);
      }
    }
  }

  /** The sort rearranges the values without adding or losing any. */
  lemma {:induction false} SortValues<T>(s: seq<Keyed<T>>)
    ensures multiset(Values(Sort(s))) == multiset(Values(s))
  {
    if |s| > 0 {
      SortValues(s[1..]);
      InsertValues(s[0], Sort(s[1..]));
      assert Values(s) == [s[0].value] + Values(s[1..]);
    }
  }

  /** Two elements out of order are swapped. */
  lemma SortSwapsTwo<T>(a: Keyed<T>, b: Keyed<T>)
    requires b.key < a.key
    ensures Sort([a, b]) == [b, a]
  {
    assert [a, b][1..] == [b];
    assert [b][1..] == [];
    assert Sort([b]) == [b];
    assert Insert(a, [b]) == [b] + Insert(a, []);
  }

  /** The group of a non-empty sequence, split at its first element. */
  lemma WithKeyCons<T>(s: seq<Keyed<T>>, k: int)
    requires |s| > 0
    ensures WithKey(s, k) == (if s[0].key == k then [s[0]] else []) + WithKey(s[1..], k)
  {
  }

  /** An ascending sequence with an element of key `k` starts with a key no
      greater than `k`. */
  lemma {:induction false} GroupMinKey<T>(a: seq<Keyed<T>>, k: int)
    requires Sorted(a) && |WithKey(a, k)| > 0
    ensures |a| > 0 && a[0].key <= k
  {
    if |a| > 0 && a[0].key != k {
      WithKeyCons(a, k);
      GroupMinKey(a[1..], k);
      assert a[0].key <= a[1].key;
    }
  }

  /** Two ascending sequences with the same groups start alike. */
  lemma SameHeads<T>(a: seq<Keyed<T>>, b: seq<Keyed<T>>)
    requires Sorted(a) && Sorted(b)
    requires forall k :: WithKey(a, k) == WithKey(b, k)
    requires |a| > 0
    ensures |b| > 0 && a[0] == b[0]
  {
    var k := a[0].key;
    HeadOfGroup(a);
    assert WithKey(b, k) == WithKey(a, k);
    GroupMinKey(b, k);
    var kb := b[0].key;
    HeadOfGroup(b);
    assert WithKey(a, kb) == WithKey(b, kb);
    GroupMinKey(a, kb);
    assert kb == k;
    HeadOfGroup(a);
    HeadOfGroup(b);
  }

  /** The group of the first element's key starts with that element. */
  lemma HeadOfGroup<T>(a: seq<Keyed<T>>)
    requires |a| > 0
    ensures |WithKey(a, a[0].key)| > 0 && WithKey(a, a[0].key)[0] == a[0]
  {
    WithKeyCons(a, a[0].key);
  }

  /** Two ascending sequences with the same groups are equal. */
  lemma {:induction false} SameGroupsEqual<T>(a: seq<Keyed<T>>, b: seq<Keyed<T>>)
    requires Sorted(a) && Sorted(b)
    requires forall k :: WithKey(a, k) == WithKey(b, k)
    ensures a == b
    decreases |a| + |b|
  {
    if |a| > 0 || |b| > 0 {
      if |a| > 0 {
        SameHeads(a, b);
      } else {
        SameHeads(b, a);
      }
      forall k
        ensures WithKey(a[1..], k) == WithKey(b[1..], k)
      {
        WithKeyCons(a, k);
        WithKeyCons(b, k);
        var p := if a[0].key == k then [a[0]] else [];
        assert WithKey(a, k) == p + WithKey(a[1..], k);
        assert WithKey(b, k) == p + WithKey(b[1..], k);
        assert (p + WithKey(a[1..], k))[|p|..] == WithKey(a[1..], k);
        assert (p + WithKey(b[1..], k))[|p|..] == WithKey(b[1..], k);
      }
      SameGroupsEqual(a[1..], b[1..]);
      assert a == [a[0]] + a[1..] && b == [b[0]] + b[1..];
    }
  }

  /** There is only one stable sort of a sequence, so `Sort` agrees with
      every stable sort, Python's `list.sort` included. */
  lemma StableSortUnique<T>(a: seq<Keyed<T>>, b: seq<Keyed<T>>, s: seq<Keyed<T>>)
    requires IsStableSortOf(a, s) && IsStableSortOf(b, s)
    ensures a == b
  {
    SameGroupsEqual(a, b);
  }
}

=== FILE: text.dfy ===
/** The few Python string operations the application relies on:
    `str.split` on a one-character separator, `str.replace`, `str.strip`,
    and the inverse of `split`, `sep.join`.
 */
module Text {

  /** The position of the first `c` in `s`. */
  function IndexOf(s: string, c: char): (i: nat)
    requires c in s
    ensures i < |s| && s[i] == c
    ensures c !in s[..i]
  {
    if s[0] == c then 0
    else
      var j := IndexOf(s[1..], c);
      assert s[..j + 1] == [s[0]] + s[1..][..j];
      1 + j
  }

  /** The first occurrence is the only one with no earlier occurrence. */
  lemma IndexOfUnique(s: string, c: char, i: nat)
    requires i < |s| && s[i] == c && c !in s[..i]
    ensures IndexOf(s, c) == i
  {
  }

  /** Python's `s.split(sep)`: the pieces between occurrences of `sep`, in
      order, so there is always one more piece than separators. The first
      piece is the text before the first separator (or all of `s`). */
  function Split(s: string, sep: char): (parts: seq<string>)
    ensures |parts| >= 1
    ensures forall k :: 0 <= k < |parts| ==> sep !in parts[k]
    ensures |parts[0]| <= |s| && s[..|parts[0]|] == parts[0]
    ensures |parts[0]| < |s| ==> s[|parts[0]|] == sep
    ensures |parts| == 1 <==> sep !in s
    decreases |s|
  {
    if sep !in s then [s]
    else
      var i := IndexOf(s, sep);
      [s[..i]] + Split(s[i + 1..], sep)
  }

  /** Splitting text that starts with a separator-free piece and a
      separator gives that piece, then the pieces of the rest. */
  lemma SplitCons(a: string, sep: char, rest: string)
    requires sep !in a
    ensures Split(a + [sep] + rest, sep) == [a] + Split(rest, sep)
  {
    var s := a + [sep] + rest;
    assert s[..|a|] == a;
    IndexOfUnique(s, sep, |a|);
    assert s[|a| + 1..] == rest;
  }

  /** Text without the separator is one piece. */
  lemma SplitNone(s: string, sep: char)
    requires sep !in s
    ensures Split(s, sep) == [s]
  {
  }

  /** Python's `sep.join(parts)`. */
  function Join(parts: seq<string>, sep: char): (s: string)
    requires |parts| >= 1
    ensures |parts| > 1 ==> sep in s
  {
    if |parts| == 1 then parts[0]
    else
      var s := parts[0] + [sep] + Join(parts[1..], sep);
      assert s[|parts[0]|] == sep;
      s
  }

  /** Splitting at the first separator. */
  lemma SplitFirst(s: string, sep: char)
    requires sep in s
    ensures var i := IndexOf(s, sep);
            Split(s, sep) == [s[..i]] + Split(s[i + 1..], sep)
  {
  }

  /** Joining at least two pieces puts a separator after the first. */
  lemma JoinFirst(a: string, rest: seq<string>, sep: char)
    requires |rest| >= 1
    ensures Join([a] + rest, sep) == a + [sep] + Join(rest, sep)
  {
    assert ([a] + rest)[0] == a && ([a] + rest)[1..] == rest;
  }

  /** Text is the part before position `i`, the character at `i`, and the
      part after it. */
  lemma AroundIndex(s: string, i: nat)
    requires i < |s|
    ensures s == s[..i] + [s[i]] + s[i + 1..]
  {
  }

  /** Joining the pieces of a split gives back the original text. */
  lemma {:induction false} JoinSplit(s: string, sep: char)
    ensures Join(Split(s, sep), sep) == s
    decreases |s|
  {
    if sep in s {
      var i := IndexOf(s, sep);
      SplitFirst(s, sep);
      JoinFirst(s[..i], Split(s[i + 1..], sep), sep);
      JoinSplit(s[i + 1..], sep);
      AroundIndex(s, i);
    }
  }

  /** Splitting a join of separator-free pieces gives back the pieces. */
  lemma {:induction false} SplitJoin(parts: seq<string>, sep: char)
    requires |parts| >= 1
    requires forall k :: 0 <= k < |parts| ==> sep !in parts[k]
    ensures Split(Join(parts, sep), sep) == parts
  {
    if |parts| > 1 {
      assert parts == [parts[0]] + parts[1..];
      JoinFirst(parts[0], parts[1..], sep);
      SplitCons(parts[0], sep, Join(parts[1..], sep));
      SplitJoin(parts[1..], sep);
    }
  }

  /** `pat` occurs in `t` starting at position `i`. */
  predicate MatchAt(t: string, pat: string, i: int)
  {
    0 <= i && i + |pat| <= |t| && t[i..i + |pat|] == pat
  }

  /** `pat` occurs somewhere in `t` (Python's `pat in t`). */
  predicate Occurs(t: string, pat: string)
  {
    exists i :: 0 <= i <= |t| - |pat| && MatchAt(t, pat, i)
  }

  /** Python's `s.replace(pat, rep)` for a non-empty `pat`: occurrences are
      found left to right and do not overlap. */
  function ReplaceAll(s: string, pat: string, rep: string): (r: string)
    requires |pat| > 0
    ensures |pat| == |rep| ==> |r| == |s|
    decreases |s|
  {
    if |s| < |pat| then s
    else if s[..|pat|] == pat then rep + ReplaceAll(s[|pat|..], pat, rep)
    else [s[0]] + ReplaceAll(s[1..], pat, rep)
  }

  /** Text without the pattern is left as it is. */
  lemma {:induction false} ReplaceAbsent(s: string, pat: string, rep: string)
    requires |pat| > 0
    requires !Occurs(s, pat)
    ensures ReplaceAll(s, pat, rep) == s
    decreases |s|
  {
    if |s| >= |pat| {
      assert !MatchAt(s, pat, 0);
      forall i | MatchAt(s[1..], pat, i)
        ensures MatchAt(s, pat, i + 1)
      {
        assert s[1..][i..i + |pat|] == s[i + 1..i + 1 + |pat|];
      }
      ReplaceAbsent(s[1..], pat, rep);
    }
  }

  /** Position `i` lies in a window where `s` reads `pat` and `r` reads
      `rep`. */
  predicate InReplacedWindow(s: string, r: string, pat: string, rep: string, i: int)
  {
    exists k :: i - |pat| < k <= i && MatchAt(s, pat, k) && MatchAt(r, rep, k)
  }

  /** A replacement of the pattern's own length changes a character only
      inside a window where the text reads the pattern and the result reads
      the replacement. */
  lemma {:induction false} ReplaceChangesWindows(s: string, pat: string, rep: string)
    requires 0 < |pat| == |rep|
    ensures var r := ReplaceAll(s, pat, rep);
            forall i :: 0 <= i < |s| ==> r[i] == s[i] || InReplacedWindow(s, r, pat, rep, i)
    decreases |s|
  {
    var r := ReplaceAll(s, pat, rep);
    if |s| >= |pat| {
      var d := if s[..|pat|] == pat then |pat| else 1;
      ReplaceChangesWindows(s[d..], pat, rep);
      assert r[d..] == ReplaceAll(s[d..], pat, rep);
      forall i | 0 <= i < |s| && r[i] != s[i]
        ensures InReplacedWindow(s, r, pat, rep, i)
      {
        if i < d {
          assert d == |pat| && MatchAt(s, pat, 0) && MatchAt(r, rep, 0);
        } else {
          assert r[d..][i - d] != s[d..][i - d];
          ShiftWindow(s, r, pat, rep, d, i);
        }
      }
    }
  }

  /** A window found in the tails `s[d..]` and `r[d..]` is one of `s` and
      `r`. */
  lemma ShiftWindow(s: string, r: string, pat: string, rep: string, d: nat, i: int)
    requires |pat| == |rep| && d <= i < |s| == |r|
    requires InReplacedWindow(s[d..], r[d..], pat, rep, i - d)
    ensures InReplacedWindow(s, r, pat, rep, i)
  {
    var k :| i - d - |pat| < k <= i - d && MatchAt(s[d..], pat, k) && MatchAt(r[d..], rep, k);
    MatchShift(s, pat, d, k + d);
    MatchShift(r, rep, d, k + d);
  }

  /** A match in `t` at or after `d` is a match in `t[d..]`, and back. */
  lemma MatchShift(t: string, pat: string, d: nat, k: int)
    requires d <= k && d <= |t|
    ensures MatchAt(t, pat, k) <==> MatchAt(t[d..], pat, k - d)
  {
    if k + |pat| <= |t| {
      assert t[d..][k - d..k - d + |pat|] == t[k..k + |pat|];
    }
  }

  /** The first character of `pat` occurs nowhere else in it, so two
      occurrences of `pat` never overlap. */
  predicate HeadOnce(pat: string)
  {
    |pat| > 0 && forall j :: 0 < j < |pat| ==> pat[j] != pat[0]
  }

  /** For a pattern that cannot overlap itself, every occurrence in the
      text reads as the replacement in the result. */
  lemma {:induction false} ReplaceEveryWindow(s: string, pat: string, rep: string)
    requires |pat| == |rep| && HeadOnce(pat)
    ensures forall k :: MatchAt(s, pat, k) ==> MatchAt(ReplaceAll(s, pat, rep), rep, k)
    decreases |s|
  {
    var r := ReplaceAll(s, pat, rep);
    if |s| >= |pat| {
      var d := if s[..|pat|] == pat then |pat| else 1;
      ReplaceEveryWindow(s[d..], pat, rep);
      assert r[d..] == ReplaceAll(s[d..], pat, rep);
      if MatchAt(s, pat, 0) {
        assert d == |pat| && r[..|rep|] == rep;
      }
      forall k | 0 < k
        ensures MatchAt(s, pat, k) ==> MatchAt(r, rep, k)
      {
        if d == |pat| && k < |pat| {
          NoMatchInside(s, pat, k);
        } else {
          MatchShift(s, pat, d, k);
          MatchShift(r, rep, d, k);
        }
      }
    }
  }

  /** Text that starts with a pattern that cannot overlap itself has no
      other occurrence starting inside that first one. */
  lemma NoMatchInside(s: string, pat: string, k: int)
    requires HeadOnce(pat) && |pat| <= |s| && 0 < k < |pat|
    requires s[..|pat|] == pat
    ensures !MatchAt(s, pat, k)
  {
    assert s[k] == s[..|pat|][k];
    if k + |pat| <= |s| {
      assert s[k..k + |pat|][0] == s[k];
    }
  }

  /** Text in which the pattern's first character does not occur is copied
      as it is. */
  lemma {:induction false} ReplaceAfterPlain(x: string, y: string, pat: string, rep: string)
    requires |pat| > 0 && pat[0] !in x
    ensures ReplaceAll(x + y, pat, rep) == x + ReplaceAll(y, pat, rep)
    decreases |x|
  {
    if |x| > 0 {
      assert x[0] in x;
      assert forall c :: c in x[1..] ==> c in x;
      ReplaceAfterPlain(x[1..], y, pat, rep);
      ReplacePlainStep(x, y, pat, rep);
    } else {
      assert x + y == y;
    }
  }

  /** One step of `ReplaceAfterPlain`: the first character of `x` cannot
      start a match. */
  lemma ReplacePlainStep(x: string, y: string, pat: string, rep: string)
    requires |pat| > 0 && |x| > 0 && x[0] != pat[0]
    requires ReplaceAll(x[1..] + y, pat, rep) == x[1..] + ReplaceAll(y, pat, rep)
    ensures ReplaceAll(x + y, pat, rep) == x + ReplaceAll(y, pat, rep)
  {
    var s := x + y;
    assert s[0] == x[0];
    if |s| >= |pat| {
      assert s[..|pat|][0] != pat[0];
    }
    ReplaceSkip(s, pat, rep);
    assert s[1..] == x[1..] + y;
    Reattach(x, ReplaceAll(y, pat, rep));
  }

  /** The pattern alone is replaced by the replacement. */
  lemma ReplaceWhole(pat: string, rep: string)
    requires |pat| > 0
    ensures ReplaceAll(pat, pat, rep) == rep
  {
    assert pat[..|pat|] == pat;
    assert ReplaceAll(pat[|pat|..], pat, rep) == [];
  }

  /** Text that does not start with the pattern keeps its first
      character. */
  lemma ReplaceSkip(s: string, pat: string, rep: string)
    requires |pat| > 0 && |s| > 0 && !(|s| >= |pat| && s[..|pat|] == pat)
    ensures ReplaceAll(s, pat, rep) == [s[0]] + ReplaceAll(s[1..], pat, rep)
  {
  }

  /** Putting the first character back in front. */
  lemma Reattach(x: string, r: string)
    requires |x| > 0
    ensures [x[0]] + (x[1..] + r) == x + r
  {
    assert x == [x[0]] + x[1..];
  }

  /** A character that cannot be part of the pattern splits the replacement
      into independent halves. */
  lemma {:induction false} ReplaceAround(x: string, d: char, y: string, pat: string, rep: string)
    requires |pat| > 0
    requires d !in pat
    ensures ReplaceAll(x + [d] + y, pat, rep)
         == ReplaceAll(x, pat, rep) + [d] + ReplaceAll(y, pat, rep)
    decreases |x|
  {
    if |x + [d] + y| < |pat| {
      ReplaceAroundShort(x, d, y, pat, rep);
    } else if |x| >= |pat| && x[..|pat|] == pat {
      ReplaceAround(x[|pat|..], d, y, pat, rep);
      ReplaceAroundMatch(x, d, y, pat, rep);
    } else if |x| == 0 {
      ReplaceAroundEmpty(d, y, pat, rep);
    } else {
      ReplaceAround(x[1..], d, y, pat, rep);
      ReplaceAroundSkip(x, d, y, pat, rep);
    }
  }

  /** `ReplaceAround` when the whole text is shorter than the pattern. */
  lemma ReplaceAroundShort(x: string, d: char, y: string, pat: string, rep: string)
    requires |pat| > 0 && |x + [d] + y| < |pat|
    ensures ReplaceAll(x + [d] + y, pat, rep)
         == ReplaceAll(x, pat, rep) + [d] + ReplaceAll(y, pat, rep)
  {
  }

  /** `ReplaceAround` when `x` starts with the pattern, given the rest of
      `x`. */
  lemma ReplaceAroundMatch(x: string, d: char, y: string, pat: string, rep: string)
    requires |pat| > 0 && |x| >= |pat| && x[..|pat|] == pat
    requires ReplaceAll(x[|pat|..] + [d] + y, pat, rep)
          == ReplaceAll(x[|pat|..], pat, rep) + [d] + ReplaceAll(y, pat, rep)
    ensures ReplaceAll(x + [d] + y, pat, rep)
         == ReplaceAll(x, pat, rep) + [d] + ReplaceAll(y, pat, rep)
  {
    var s := x + [d] + y;
    assert s[..|pat|] == x[..|pat|];
    assert s[|pat|..] == x[|pat|..] + [d] + y;
    Regroup(rep, ReplaceAll(x[|pat|..], pat, rep), d, ReplaceAll(y, pat, rep));
  }

  /** `ReplaceAround` when `x` is empty: `d` cannot start the pattern. */
  lemma ReplaceAroundEmpty(d: char, y: string, pat: string, rep: string)
    requires |pat| > 0 && d !in pat
    ensures ReplaceAll([d] + y, pat, rep) == [d] + ReplaceAll(y, pat, rep)
  {
    var s := [d] + y;
    if |s| >= |pat| {
      assert s[..|pat|][0] == d;
      assert s[1..] == y;
    }
  }

  /** `ReplaceAround` when the text does not start with the pattern and `x`
      is not empty, given the rest of `x`. */
  lemma ReplaceAroundSkip(x: string, d: char, y: string, pat: string, rep: string)
    requires |pat| > 0 && d !in pat && |x| > 0 && |x + [d] + y| >= |pat|
    requires !(|x| >= |pat| && x[..|pat|] == pat)
    requires ReplaceAll(x[1..] + [d] + y, pat, rep)
          == ReplaceAll(x[1..], pat, rep) + [d] + ReplaceAll(y, pat, rep)
    ensures ReplaceAll(x + [d] + y, pat, rep)
         == ReplaceAll(x, pat, rep) + [d] + ReplaceAll(y, pat, rep)
  {
    var s := x + [d] + y;
    NoMatchAround(x, d, y, pat);
    assert s[1..] == x[1..] + [d] + y;
    assert ReplaceAll(x, pat, rep) == [x[0]] + ReplaceAll(x[1..], pat, rep);
    Regroup([x[0]], ReplaceAll(x[1..], pat, rep), d, ReplaceAll(y, pat, rep));
  }

  /** Text around `d` starts with the pattern only if `x` does. */
  lemma NoMatchAround(x: string, d: char, y: string, pat: string)
    requires |pat| > 0 && d !in pat && |x + [d] + y| >= |pat|
    requires !(|x| >= |pat| && x[..|pat|] == pat)
    ensures (x + [d] + y)[..|pat|] != pat
  {
    var s := x + [d] + y;
    if |x| >= |pat| {
      assert s[..|pat|] == x[..|pat|];
    } else {
      assert s[..|pat|][|x|] == d;
    }
  }

  /** Replacing in a path of four parts replaces in each part on its own,
      when the pattern holds no `/`. */
  lemma ReplaceSlashed(a: string, b: string, c: string, d: string, pat: string, rep: string)
    requires |pat| > 0 && '/' !in pat
    ensures ReplaceAll(a + "/" + b + "/" + c + "/" + d, pat, rep)
         == ReplaceAll(a, pat, rep) + "/" + ReplaceAll(b, pat, rep) + "/"
          + ReplaceAll(c, pat, rep) + "/" + ReplaceAll(d, pat, rep)
  {
    ReplaceAround(c, '/', d, pat, rep);
    ReplaceAround(b, '/', c + ['/'] + d, pat, rep);
    ReplaceAround(a, '/', b + ['/'] + (c + ['/'] + d), pat, rep);
    SlashNest(a, b, c, d);
    SlashNest(ReplaceAll(a, pat, rep), ReplaceAll(b, pat, rep), ReplaceAll(c, pat, rep), ReplaceAll(d, pat, rep));
  }

  /** A path of four parts, grouped from the right. */
  lemma SlashNest(a: string, b: string, c: string, d: string)
    ensures a + ['/'] + (b + ['/'] + (c + ['/'] + d)) == a + "/" + b + "/" + c + "/" + d
  {
  }

  /** A front piece before a text split around `d`. */
  lemma Regroup(f: string, a: string, d: char, b: string)
    ensures f + (a + [d] + b) == (f + a) + [d] + b
  {
  }

  /** The characters Python's `str.isspace` accepts, which `str.strip()`
      removes. */
  predicate IsStrSpace(c: char)
  {
    || c == ' ' || c == '\t' || c == '\n' || c == '\r'
    || c == '\U{000B}' || c == '\U{000C}'
    || ('\U{001C}' <= c <= '\U{001F}')
    || c == '\U{0085}' || c == '\U{00A0}' || c == '\U{1680}'
    || ('\U{2000}' <= c <= '\U{200A}')
    || c == '\U{2028}' || c == '\U{2029}' || c == '\U{202F}'
    || c == '\U{205F}' || c == '\U{3000}'
  }

  /** The characters `int()` skips around a number: those of `str.isspace`
      except the four ASCII separator controls U+001C..U+001F. */
  predicate IsIntSpace(c: char)
  {
    IsStrSpace(c) && !('\U{001C}' <= c <= '\U{001F}')
  }

  /** Every character of `s` is whitespace in the sense of `space`. */
  predicate AllSpace(s: string, space: char -> bool)
  {
    forall i :: 0 <= i < |s| ==> space(s[i])
  }

  /** `s` is whitespace followed by `r`. */
  predicate SpaceThen(s: string, r: string, space: char -> bool)
  {
    |r| <= |s| && s[|s| - |r|..] == r && AllSpace(s[..|s| - |r|], space)
  }

  /** `s` is `r` followed by whitespace. */
  predicate ThenSpace(s: string, r: string, space: char -> bool)
  {
    |r| <= |s| && s[..|r|] == r && AllSpace(s[|r|..], space)
  }

  /** `s` with its leading whitespace removed. */
  function TrimLeft(s: string, space: char -> bool): (r: string)
    ensures SpaceThen(s, r, space)
    ensures |r| > 0 ==> !space(r[0])
  {
    if |s| > 0 && space(s[0]) then
      var r := TrimLeft(s[1..], space);
      SpaceThenCons(s, r, space);
      r
    else
      SpaceThenSelf(s, space);
      s
  }

  /** A whitespace character in front keeps `SpaceThen`. */
  lemma SpaceThenCons(s: string, r: string, space: char -> bool)
    requires |s| > 0 && space(s[0]) && SpaceThen(s[1..], r, space)
    ensures SpaceThen(s, r, space)
  {
    assert s[1..][|s| - 1 - |r|..] == s[|s| - |r|..];
    assert forall i :: 1 <= i < |s| - |r| ==> s[i] == s[1..][..|s| - 1 - |r|][i - 1];
  }

  /** No whitespace at all. */
  lemma SpaceThenSelf(s: string, space: char -> bool)
    ensures SpaceThen(s, s, space) && ThenSpace(s, s, space)
  {
  }

  /** `s` with its trailing whitespace removed. */
  function TrimRight(s: string, space: char -> bool): (r: string)
    ensures ThenSpace(s, r, space)
    ensures |r| > 0 ==> !space(r[|r| - 1])
  {
    if |s| > 0 && space(s[|s| - 1]) then
      var r := TrimRight(s[..|s| - 1], space);
      ThenSpaceSnoc(s, r, space);
      r
    else
      SpaceThenSelf(s, space);
      s
  }

  /** A whitespace character at the end keeps `ThenSpace`. */
  lemma ThenSpaceSnoc(s: string, r: string, space: char -> bool)
    requires |s| > 0 && space(s[|s| - 1]) && ThenSpace(s[..|s| - 1], r, space)
    ensures ThenSpace(s, r, space)
  {
    assert s[..|s| - 1][..|r|] == s[..|r|];
    assert forall i :: |r| <= i < |s| - 1 ==> s[i] == s[..|s| - 1][|r|..][i - |r|];
  }

  /** Slices of a suffix `t` of `s` are slices of `s`. */
  lemma SuffixSlices(s: string, t: string, k: nat)
    requires |t| <= |s| && t == s[|s| - |t|..] && k <= |t|
    ensures t[..k] == s[|s| - |t|..|s| - |t| + k]
    ensures t[k..] == s[|s| - |t| + k..]
  {
  }

  /** `s` without whitespace at either end: the result neither starts nor
      ends with whitespace (`TrimBothSlice` says where it lies in `s`). */
  function TrimBoth(s: string, space: char -> bool): (r: string)
    ensures |r| <= |s|
    ensures |r| > 0 ==> !space(r[0]) && !space(r[|r| - 1])
  {
    var t := TrimLeft(s, space);
    var r := TrimRight(t, space);
    assert |r| > 0 ==> r[0] == t[0];
    r
  }

  /** `s` is `lead` characters of whitespace, then `r`, then more
      whitespace. */
  predicate Padded(s: string, lead: int, r: string, space: char -> bool)
  {
    && 0 <= lead && lead + |r| <= |s| && s[lead..lead + |r|] == r
    && AllSpace(s[..lead], space) && AllSpace(s[lead + |r|..], space)
  }

  /** `s` is some whitespace, then its trimmed form, then more
      whitespace. */
  lemma TrimBothSlice(s: string, space: char -> bool)
    ensures Padded(s, |s| - |TrimLeft(s, space)|, TrimBoth(s, space), space)
  {
    var t := TrimLeft(s, space);
    var r := TrimRight(t, space);
    assert TrimBoth(s, space) == r;
    TrimBothParts(s, t, r, space);
  }

  /** Trimming the right of a suffix `t` of `s` leaves a slice of `s`, with
      whitespace before and after it. */
  lemma TrimBothParts(s: string, t: string, r: string, space: char -> bool)
    requires SpaceThen(s, t, space) && ThenSpace(t, r, space)
    ensures Padded(s, |s| - |t|, r, space)
  {
    SuffixSlices(s, t, |r|);
  }

  /** Text that neither starts nor ends with whitespace is its own trimmed
      form. */
  lemma TrimBothUnchanged(s: string, space: char -> bool)
    requires |s| > 0 ==> !space(s[0]) && !space(s[|s| - 1])
    ensures TrimBoth(s, space) == s
  {
  }

  /** Python's `s.strip()`. */
  function Strip(s: string): string
  {
    TrimBoth(s, IsStrSpace)
  }

  /** Stripping twice is stripping once. */
  lemma StripIdempotent(s: string)
    ensures Strip(Strip(s)) == Strip(s)
  {
    TrimBothUnchanged(Strip(s), IsStrSpace);
  }
}
